=== FILE: README.md ===
# ex_iceberg native core, modelled in Dafny

ex_iceberg lets an Elixir host talk to an Apache Iceberg REST catalog
through a Rust native module. This project models that module's core as
pure Dafny functions over immutable data, and proves properties of it:

- **Catalog handles and connection properties.** `rest_catalog_new`
  turns the host's configuration into a handle. The handle keeps the
  endpoint, an optional warehouse and a map of authentication
  properties. Every time a catalog client is built from a handle
  (`get_catalog`), `uri` and `warehouse` are laid over that map. The
  legacy module builds a `RestCatalogConfig` in a four-way match instead
  (module `Connection`).
- **Namespaces and identifiers.** Namespaces travel as lists of parts
  and as dotted strings (`join(".")` / `split('.')`). The `From`
  conversions move between the host mirrors and the library's
  identifiers (module `Namespaces`).
- **Two schema translators** turn host field descriptions into nested
  fields with ids:
  - The live one (module `StrideTranslator`) derives each id from the
    field's position: `index + 1` for a top-level field and
    `index * 1000 + offset` inside it.
  - The legacy one (module `CounterTranslator`) gives a top-level field
    its explicit id if there is one, else its position plus one. A struct
    member keeps its explicit id if it has one. List elements, map keys
    and values, and struct members without an explicit id draw the next
    value of a counter that starts at 1000 and is shared across one create
    call, in post-order.
- **The catalog calls**: list and create namespaces; table exists, drop,
  create, load and rename. Each converts its identifiers, performs one
  remote operation and maps the outcome to the host's ok/error reply
  (modules `CatalogOps` for the live file and `LegacyCatalog` for the
  legacy one).
- **The table handle** `SmartTableResource` caches the six-key metadata
  map. Metadata calls are answered from the cache when it is populated;
  inspection always loads; invalidation empties the cache (module
  `TableHandle`).

Some things are parameters of the model:

- **The remote catalog.** It is a record of functions. Each takes the
  connection properties (or the legacy configuration) and the call's
  arguments, and returns a value or the rendered error message.
- **The Iceberg schema builder.** It is an `acceptsSchema` predicate. A
  rejected schema is a panic, as at the source's `unwrap`.
- **Panics** (`expect`, `unwrap`) are an `Outcome` that is either
  `Returned(value)` or `Panicked(message)`.

Each scalar variant of the legacy `IcebergType` maps one-to-one to
a primitive kind. The sixteen scalar variants sit under one `Scalar(kind)`
constructor, because only the primitive mapping tells them apart.

The legacy create call (native/ex_iceberg/src/lib_old.rs:379-443)
starts its counter at 1000 however large the explicit ids are, and sends
the schema to the catalog without checking for duplicate ids.
`CounterTranslator.ExplicitIdCanCollideWithCounter` exhibits a resulting
collision.

The two generations of catalog calls are compared in module
`GenerationAgreement`, and the two translators on scalar types in module
`TranslatorAgreement`.

## Model

| member | source | states |
|---|---|---|
| Namespaces.Split | native/ex_iceberg/src/table.rs:54 | splitting on `.` always yields at least one piece and no piece contains a `.` |
| Namespaces.JoinSplit | native/ex_iceberg/src/table.rs:53-59 | `Join` (`join(".")`) undoes `Split`: joining the pieces of a split with `.` gives back the original string, whatever it holds |
| Namespaces.SplitJoin | native/ex_iceberg/src/catalog.rs:246 | `Split` undoes `Join` exactly when it can: splitting the dotted join of a part list recovers the parts if and only if there is a part and none contains a `.` |
| Namespaces.FromVec | native/ex_iceberg/src/catalog.rs:14-18 | a namespace is made from the parts exactly when there is at least one, and it keeps them |
| Namespaces.ToNamespace | native/ex_iceberg/src/catalog.rs:14-18 | the host namespace converts to a library namespace with the same parts, and panics exactly when it has no part; the panic carries the `expect` argument "Invalid namespace" |
| Namespaces.ToTableIdent | native/ex_iceberg/src/catalog.rs:26-30 | a host table identifier converts with the same parts and name, and panics exactly when its namespace is empty |
| Namespaces.FromNamespace | native/ex_iceberg/src/catalog.rs:20-24 | a library namespace becomes a host namespace with the same parts |
| Namespaces.FromTableIdent | native/ex_iceberg/src/catalog.rs:32-39 | a library table identifier becomes a host one with the same parts and name |
| Namespaces.NamespaceRoundTrip | native/ex_iceberg/src/catalog.rs:14-24 | converting a host namespace to the library and back returns it unchanged, and a library namespace survives the trip to the host and back |
| Namespaces.TableIdentRoundTrip | native/ex_iceberg/src/catalog.rs:26-39 | the same two round trips hold for table identifiers |
| Namespaces.ParseNamespace | native/ex_iceberg/src/lib_old.rs:155-158 | a dotted string becomes a namespace of its split pieces without panicking, and joining them restores the string |
| Namespaces.ParseJoinedNamespace | native/ex_iceberg/src/lib_old.rs:135 | a listed dotted name parses back to the listed namespace if and only if the namespace has a part and no part contains a `.` |
| Connection.InsertAllLookup | native/ex_iceberg/src/catalog.rs:103-127 | a run of optional inserts under distinct keys adds exactly the present entries and keeps every other key's value |
| Connection.AuthProps | native/ex_iceberg/src/catalog.rs:101-128 | a key is in the property map if and only if its authentication setting is present, with that setting's value; `uri` and `warehouse` never are |
| Connection.LegacyAuthProps | native/ex_iceberg/src/lib_old.rs:88-122 | the legacy map has the same key-by-key characterisation, with the token inserted first |
| Connection.LegacyAuthPropsAgree | native/ex_iceberg/src/lib_old.rs:92-116 | the legacy and live insertion orders build the same property map |
| Connection.CatalogNew | native/ex_iceberg/src/catalog.rs:101-131 | creating a catalog always answers ok, with a handle that keeps endpoint and warehouse and whose property map is the authentication map: exactly the present settings with their values |
| Connection.CatalogNewAgree | native/ex_iceberg/src/lib_old.rs:87-122 | the legacy and live constructors build the same handle |
| Connection.LegacyCatalogNew | native/ex_iceberg/src/lib_old.rs:87-122 | the legacy constructor always answers ok, keeps endpoint and warehouse, and its property map holds exactly the present settings with their values |
| Connection.ConnectionProps | native/ex_iceberg/src/catalog.rs:65-72 | the client properties map `uri` to the endpoint, `warehouse` to the warehouse when given (else keep any stored one), and every other key to its stored value |
| Connection.NewHandleConnectionProps | native/ex_iceberg/src/catalog.rs:65-131 | for a newly created handle, the client properties hold exactly the endpoint, the warehouse when given, and the present authentication settings |
| Connection.BuildConfig | native/ex_iceberg/src/lib_old.rs:50-67 | the legacy configuration always sets the endpoint, sets the warehouse exactly when there is one, and attaches the property map exactly when it is non-empty |
| Connection.BuildConfigKeepsProps | native/ex_iceberg/src/lib_old.rs:50-67 | with an unattached map read as empty, all four arms hand the handle's own map to the client |
| StrideTranslator.LivePrimitive | native/ex_iceberg/src/catalog.rs:256-271 | a non-container field type maps to a primitive kind keeping Decimal precision and scale and Fixed length, and never to a time or nanosecond kind |
| StrideTranslator.LivePrimitiveIsInjective | native/ex_iceberg/src/catalog.rs:256-271 | distinct non-container field types map to distinct primitive kinds |
| StrideTranslator.NestedFallback | native/ex_iceberg/src/catalog.rs:276-281 | a nested type keeps Int or Long and becomes String in every other case, containers included |
| StrideTranslator.StrideType | native/ex_iceberg/src/catalog.rs:255-350 | a scalar field becomes its own primitive kind; containers keep their kind, the names "element", "key" and "value", their required flags and their member names, and every element, key, value and member type becomes the nested fallback kind |
| StrideTranslator.StrideMembers | native/ex_iceberg/src/catalog.rs:325-346 | the struct member at `j` of the field at position `index` keeps its name and flag, gets id `index*1000+j+10`, and its type becomes the nested fallback kind |
| StrideTranslator.StrideFields | native/ex_iceberg/src/catalog.rs:251-358 | the field at position `offset+i` gets id `offset+i+1`, keeps its name and flag, and its type is translated at its own position |
| StrideTranslator.StrideSchema | native/ex_iceberg/src/catalog.rs:251-358 | the schema has one field per input field, in order; the field at `i` gets id `i+1`, keeps its name and flag, and its type is translated at position `i` |
| TranslatorAgreement.LivePrimitiveMatchesLegacy | native/ex_iceberg/src/catalog.rs:256-271 | each live scalar maps to the same primitive kind as its legacy namesake, so the live mapping is pinned name for name |
| TranslatorAgreement.ScalarTranslatorsAgree | native/ex_iceberg/src/lib_old.rs:286-306 | a top-level scalar field gets the same type from both translators, and the legacy counter does not move |
| TranslatorAgreement.LegacyScalarIsInjective | native/ex_iceberg/src/types.rs:11-42 | distinct live scalar types embed as distinct legacy scalar variants |
| StrideTranslator.StrideTypeIds | native/ex_iceberg/src/catalog.rs:284-339 | the ids below the field at position `index` are consecutive from `index*1000+1` (list, map) or `index*1000+10` (struct members), one per element, key, value or member |
| StrideTranslator.IndexZeroContainerCollides | native/ex_iceberg/src/catalog.rs:284 | a list or map at position 0 gets element or key id 1, the id of the field itself, so the schema has a duplicate id |
| StrideTranslator.IndexZeroStructCollides | native/ex_iceberg/src/catalog.rs:339 | a struct at position 0 with ten or more fields has its first member id 10 equal to the tenth field's id |
| StrideTranslator.WideStructCollides | native/ex_iceberg/src/catalog.rs:339 | a struct wider than 991 members runs into the next position's block and collides with a following list's element id |
| StrideTranslator.TooManyFieldsCollides | native/ex_iceberg/src/catalog.rs:284-352 | with more than 1000 fields, the field at position 1000 gets id 1001, the element id of a list at position 1 |
| StrideTranslator.NestedIdsIncrease | native/ex_iceberg/src/catalog.rs:273-352 | when every struct fits its block, the nested ids increase strictly in field order and lie above the first block's start |
| StrideTranslator.StrideIdsDistinct | native/ex_iceberg/src/catalog.rs:251-358 | with at most 1000 fields, no overfull struct and no container at position 0, all the schema's ids are distinct |
| StrideTranslator.IdsDependOnlyOnShape | native/ex_iceberg/src/catalog.rs:251-358 | ids depend only on position and on each type's kind and width, never on names, flags or nested types |
| CounterTranslator.Translate | native/ex_iceberg/src/lib_old.rs:284-377 | a scalar becomes its namesake primitive without touching the counter; a list or map keeps the names "element", "key" and "value" and their required flags; struct members keep their order, names and required flags, and an explicit member id is used as given; the counter advances by exactly the number of nested fields without an explicit id |
| CounterTranslator.TranslateMembers | native/ex_iceberg/src/lib_old.rs:354-375 | struct members keep their order, names and required flags, an explicit member id is used as given, and the counter advances by the members' id-less nested fields |
| CounterTranslator.PrimitiveMappingIsInjective | native/ex_iceberg/src/lib_old.rs:286-306 | each scalar type maps to its own primitive kind, which maps back to it, without touching the counter; Decimal and Fixed keep their parameters |
| CounterTranslator.PrimitiveMappingIsOnto | native/ex_iceberg/src/lib_old.rs:286-306 | every primitive kind is the image of some scalar type |
| CounterTranslator.TranslateFillsSlots | native/ex_iceberg/src/lib_old.rs:308-375 | the nested ids of a translated type, in post-order, are its explicit ids where given and consecutive counter values elsewhere |
| CounterTranslator.CounterIdsWithin | native/ex_iceberg/src/lib_old.rs:284-377 | every counter id handed out while translating a type lies in the range the counter passed through |
| CounterTranslator.ListElementIdFollowsSubtree | native/ex_iceberg/src/lib_old.rs:308-325 | a list element without an explicit id gets the counter value after every id of the element's own subtree |
| CounterTranslator.MapKeyIdFollowsSubtree | native/ex_iceberg/src/lib_old.rs:327-352 | the map key's id comes after the key subtree's counter ids |
| CounterTranslator.MapValueIdFollowsSubtree | native/ex_iceberg/src/lib_old.rs:327-352 | the map value's id comes after the key id and after the value subtree's counter ids |
| CounterTranslator.TranslateFieldsFillsSlots | native/ex_iceberg/src/lib_old.rs:397-410 | one counter is shared across the top-level fields in order, so the schema's nested ids are all its id slots filled from one run |
| CounterTranslator.TranslateFields | native/ex_iceberg/src/lib_old.rs:399-410 | each top-level field from position `offset` on keeps its name and flag, takes its explicit id or its position plus one (never a counter id), and its type is the nested translation started at the counter value reached after the id-less slots of the fields before it |
| CounterTranslator.BuildSchemaFields | native/ex_iceberg/src/lib_old.rs:399-410 | each top-level field keeps its name and required flag, takes its explicit id or its position plus one, and its type is the nested translation started at 1000 plus the number of id-less slots in the fields before it |
| CounterTranslator.CounterIdsDistinctInCall | native/ex_iceberg/src/lib_old.rs:397-410 | within one create call, every counter id is at least 1000 and strictly increases in post-order, so no two coincide |
| CounterTranslator.SchemaIdsDistinctWithoutExplicitIds | native/ex_iceberg/src/lib_old.rs:397-410 | without explicit ids and with fewer than 1000 fields, all of the schema's ids are distinct |
| CounterTranslator.CounterIdsConsecutive | native/ex_iceberg/src/lib_old.rs:397-410 | without explicit nested ids, the nested ids are exactly 1000, 1001, ... in post-order |
| CounterTranslator.ExplicitIdCanCollideWithCounter | native/ex_iceberg/src/lib_old.rs:359-363 | an explicit member id of 1000 coincides with the first counter id, because the counter is not seeded above explicit ids |
| CatalogOps.ListNamespaces | native/ex_iceberg/src/catalog.rs:133-160 | a listing answers ok with every namespace's parts in order, or error with one pseudo-namespace holding the prefixed message |
| CatalogOps.CreateNamespace | native/ex_iceberg/src/catalog.rs:162-188 | it panics exactly on an empty namespace; otherwise it echoes the created namespace or returns the prefixed error |
| CatalogOps.TableExists | native/ex_iceberg/src/catalog.rs:190-207 | it panics exactly on an empty namespace; otherwise it answers the remote's yes or no, or `false` under error |
| CatalogOps.ExistsErrorLooksAbsent | native/ex_iceberg/src/catalog.rs:190-207 | the answer is `true` if and only if the remote answered `true`; a failed lookup and an absent table both answer `false` |
| CatalogOps.DropTable | native/ex_iceberg/src/catalog.rs:209-234 | it panics exactly on an empty namespace; success echoes the identifier, and failure returns a pseudo-identifier "error" carrying the prefixed message |
| CatalogOps.HandleFor | native/ex_iceberg/src/catalog.rs:378-392 | the returned handle connects with the catalog's settings, stores the dotted namespace and the table name, and starts with an empty cache |
| CatalogOps.CreateTable | native/ex_iceberg/src/catalog.rs:236-393 | it panics exactly on an empty namespace or a rejected schema; otherwise it sends the position-translated schema and answers a fresh handle or the prefixed error |
| CatalogOps.LoadTable | native/ex_iceberg/src/catalog.rs:395-427 | it panics exactly on an empty namespace; otherwise it answers a fresh handle to the loaded table or the prefixed error |
| CatalogOps.LoadedHandleFindsTable | native/ex_iceberg/src/catalog.rs:402 | a loaded table's handle connects the same way and rebuilds the identifier it was loaded by if and only if no namespace part contains a `.` |
| CatalogOps.CreatedHandleFindsTable | native/ex_iceberg/src/catalog.rs:246 | a created table's handle has the same property as a loaded one |
| CatalogOps.RenameTable | native/ex_iceberg/src/catalog.rs:429-474 | it panics exactly when either namespace is empty; success maps "renamed" to "source -> destination" as dotted full names, and failure maps "error" to the prefixed message |
| CatalogOps.RenameMessageExample | native/ex_iceberg/src/catalog.rs:446-463 | renaming `a.b.t1` to `c.d.t2` answers `renamed => "a.b.t1 -> c.d.t2"` |
| CatalogOps.FullNameSplits | native/ex_iceberg/src/catalog.rs:448-458 | a dotted full name splits back into namespace parts and table name if and only if none of them contains a `.` |
| CatalogOps.TwoPartFullName | native/ex_iceberg/src/catalog.rs:448-458 | the full name of a table in a two-part namespace is the parts and the name joined by `.` |
| LegacyCatalog.LegacyTableIdent | native/ex_iceberg/src/lib_old.rs:190-193 | the identifier built from a dotted namespace joins back to that string and always has a part |
| LegacyCatalog.LegacyListNamespaces | native/ex_iceberg/src/lib_old.rs:124-143 | a listing answers every namespace joined with `.`, or the one prefixed error |
| LegacyCatalog.ListedNameRoundTrip | native/ex_iceberg/src/lib_old.rs:135 | a listed name passed back in names the same namespace if and only if the namespace has a part and none is dotted |
| LegacyCatalog.LegacyCreateNamespace | native/ex_iceberg/src/lib_old.rs:145-178 | it never panics; success echoes the given string under "namespace", and failure returns the prefixed error |
| LegacyCatalog.LegacyTableExists | native/ex_iceberg/src/lib_old.rs:180-201 | it answers the remote's yes or no, or `false` under error |
| LegacyCatalog.LegacyDropTable | native/ex_iceberg/src/lib_old.rs:203-235 | success maps "table" to `namespace.table` (`Dotted`), and failure maps "error" to the prefixed message |
| LegacyCatalog.LegacyCreateTable | native/ex_iceberg/src/lib_old.rs:379-443 | it panics exactly when the counter-translated schema with schema id 1 is rejected; success maps "table" to `namespace.table`, and failure returns the prefixed error |
| LegacyCatalog.LegacyLoadTable | native/ex_iceberg/src/lib_old.rs:445-512 | success answers a map with exactly the six metadata keys, and failure answers the prefixed load error |
| LegacyCatalog.LegacyLoadMatchesHandleMetadata | native/ex_iceberg/src/lib_old.rs:466-504 | the legacy load answer equals the first metadata answer of a fresh table handle for the same table |
| GenerationAgreement.SameIdentifierSent | native/ex_iceberg/src/lib_old.rs:190-193 | for a namespace with a part and no dotted part, the legacy split of its dotted string gives the identifier the live conversion gives |
| GenerationAgreement.ListNamespacesAgree | native/ex_iceberg/src/lib_old.rs:124-143 | given the same listing, both generations answer the same atom and count, each legacy entry is the live entry joined with `.`, and a failure carries the same message |
| GenerationAgreement.CreateNamespaceAgree | native/ex_iceberg/src/lib_old.rs:145-178 | given catalogs that answer alike, both generations answer the same atom; the legacy echo is the live echo joined with `.`, and a failure carries the same message |
| GenerationAgreement.TableExistsAgree | native/ex_iceberg/src/lib_old.rs:180-201 | given the same answer, the legacy and live existence replies are equal |
| GenerationAgreement.DropTableAgree | native/ex_iceberg/src/lib_old.rs:203-235 | given the same outcome, both answer the same atom; the legacy "table" entry is the full name of the identifier the live call echoes, and a failure carries the same message |
| GenerationAgreement.CreateTableAgree | native/ex_iceberg/src/lib_old.rs:379-443 | with both schemas accepted and the same outcome, neither panics, the live call answers a handle exactly when the legacy one answers ok, the legacy "table" entry is the handle's namespace and name joined by `.`, and a failure carries the same message |
| GenerationAgreement.DottedPartIsSplitByLegacy | native/ex_iceberg/src/lib_old.rs:155-158 | a namespace part "a.b" is sent whole by the live call and as the two parts "a" and "b" by the legacy call |
| TableHandle.NewSmartTable | native/ex_iceberg/src/table.rs:34-51 | a new handle keeps its settings and starts with an empty cache |
| TableHandle.BuildTableIdent | native/ex_iceberg/src/table.rs:53-59 | the rebuilt identifier has the split namespace, always has a part, joins back to the stored string and keeps the table name |
| TableHandle.GetTable | native/ex_iceberg/src/table.rs:73-82 | a load goes through the overlaid connection properties; an error gains the prefix "Failed to load table: " |
| TableHandle.MetadataMap | native/ex_iceberg/src/table.rs:97-132 | the metadata map has exactly the six keys, each bound to the matching table value |
| TableHandle.InspectMap | native/ex_iceberg/src/table.rs:143-168 | the inspect map has identifier, location and uuid, plus snapshot id and sequence number exactly when there is a current snapshot |
| TableHandle.GetMetadataCached | native/ex_iceberg/src/table.rs:84-141 | a populated cache is answered without a load; otherwise one load, and success fills the cache with the six-key map while failure leaves the handle unchanged; only the cache ever changes |
| TableHandle.GetInspectData | native/ex_iceberg/src/table.rs:143-168 | inspection always loads once, never changes the handle, succeeds exactly when the load does with the inspection map of the loaded table, and otherwise passes the load error message through unchanged |
| TableHandle.InvalidateCache | native/ex_iceberg/src/table.rs:170-173 | the cache is empty afterwards and nothing else changes |
| TableHandle.Reply | native/ex_iceberg/src/table.rs:177-189 | success answers ok with the map, and failure answers error with a one-entry map under "error" |
| TableHandle.TableMetadata | native/ex_iceberg/src/table.rs:177-189 | a populated cache answers ok with the cached map and no load; otherwise one load, whose map answers ok and becomes the cache, or whose error answers error under "error" and leaves the handle unchanged |
| TableHandle.TableMetadataRef | native/ex_iceberg/src/table.rs:191-205 | the reference variant answers as the metadata call does: cached map without a load, or one load that fills the cache or answers the error |
| TableHandle.TableInspect | native/ex_iceberg/src/table.rs:207-219 | a host inspection performs one load and leaves the handle as it was; it answers `ok` with the inspection map, or `error` with the load error message under "error" |
| TableHandle.TableInvalidateCache | native/ex_iceberg/src/table.rs:221-225 | invalidation always answers ok and leaves only the cache emptied |
| TableHandle.MetadataRefIsMetadata | native/ex_iceberg/src/table.rs:191-205 | the reference variant of the metadata call behaves exactly like the metadata call |
| TableHandle.Run | native/ex_iceberg/src/table.rs:177-225 | a sequence of host calls answers once per call and changes nothing of the handle but its cache |
| TableHandle.LoadsBounded | native/ex_iceberg/src/table.rs:84-141 | with a loader that succeeds, a run loads at most once per inspection, once per invalidation, and once more if it starts uncached |
| TableHandle.RunKeepsCacheWellFormed | native/ex_iceberg/src/table.rs:135-138 | a cache that starts empty or holding a metadata map stays that way through any run of calls |
| TableHandle.CachedMetadataIsServedWithoutLoad | native/ex_iceberg/src/table.rs:86-91 | right after a successful metadata call, the next one performs no load and returns the same map, even if the table has changed |
| TableHandle.InvalidateForcesReload | native/ex_iceberg/src/table.rs:170-173 | after invalidation, the next metadata call loads again and answers with the catalog's current state |
| TableHandle.FailedLoadIsRetried | native/ex_iceberg/src/table.rs:135-138 | a failed metadata call leaves the handle unchanged, so the next call loads again |
| TableHandle.InspectIgnoresCache | native/ex_iceberg/src/table.rs:143-168 | the inspection answer does not depend on what the cache holds |

## Left out

- StrideTranslator.StrideType: ids are unbounded integers. The source computes `index as i32 * 1000 + offset` in 32-bit arithmetic, which overflows only beyond about two million fields.
- CounterTranslator.Translate: the counter is an unbounded integer. The source's `i32` counter overflows only after about 2^31 nested fields.
- Namespaces.FromVec: the library's `NamespaceIdent::from_vec` is not part of this model. It is assumed to refuse exactly the empty list.
- Schema building (`Schema::builder().build()`): the library's validation is not part of this model. It is the `acceptsSchema` parameter of the remote, and a refusal is a panic.
- Network, the tokio runtime, `block_on` and the Mutex around the cache: calls are modelled as sequential and atomic. `Runtime::new().unwrap()` is taken to succeed.
- Catalog client construction (`RestCatalogBuilder::load`): its failure is folded into each remote operation's error message.
- Rendered text (the `Display` of errors, the `Debug` of identifiers, the serde JSON of fields and properties, decimal renderings of numbers): each is an opaque string of the loaded table or the error.
- Namespaces.ToNamespace: the panic message is only the `expect` argument "Invalid namespace". Rust appends ": " and the Debug rendering of the library's error, which is not modelled because that error type is not part of this model.
- Other panic message texts (`unwrap` on a rejected schema): they are fixed strings of the model, not the library's.
- The Rustler glue (atoms, resource registration, the module wiring in lib.rs): the host reply is a pair of an ok/error atom and a value.
- The legacy module's table resource and table metadata calls are commented out in its source, so they are not modelled.
- `load_table` of the live module returns a handle; its loaded table value is not kept, because the handle reloads on first use.

=== FILE: base.dfy ===
/** Shared value types: optional values, fallible results, panics, and the
    fixed-width unsigned integers that appear in the field-type descriptors. */
module Base {

  /** Rust's `Option`. */
  datatype Option<+T> = None | Some(value: T) {

    /** `Option::unwrap_or`: the value if present, otherwise the default. */
    function GetOr(default: T): T {
      match this
      case Some(v) => v
      case None => default
    }
  }

  /** A fallible result whose error is already rendered as text. Library
      errors are only ever observed through their `Display` rendering, so the
      error side carries that rendering as an opaque string. */
  datatype Result<+T> = Ok(value: T) | Err(error: string)

  /** What a native call does at the host boundary: it either returns a value
      or panics (an `unwrap` or `expect` on a failing value). */
  datatype Outcome<+T> = Returned(value: T) | Panicked(message: string)

  /** The two atoms every reply is tagged with. */
  datatype Atom = OkAtom | ErrorAtom

  /** Property maps (`HashMap<String, String>`). */
  type Props = map<string, string>

  newtype u32 = x: int | 0 <= x < 0x1_0000_0000

  newtype u64 = x: int | 0 <= x < 0x1_0000_0000_0000_0000

  /** The lossless `u32 -> u64` conversion (`.into()`). */
  function Widen(x: u32): (r: u64)
    ensures r as int == x as int
  {
    x as int as u64
  }

  /** No value occurs twice. */
  predicate NoDuplicates(s: seq<int>) {
    forall i, j | 0 <= i < j < |s| :: s[i] != s[j]
  }
}

=== FILE: catalog_ops.dfy ===
/** The catalog calls of native/ex_iceberg/src/catalog.rs: each converts its
    identifiers, builds a catalog client from the handle's connection
    properties, performs one remote operation, and maps the result to the
    host's ok/error shape. The remote side is abstract: every operation is a
    function of the connection properties and its arguments, and its error
    (including a failure to build the client) is the rendered message. */
module CatalogOps {
  import opened Base
  import opened SpecTypes
  import opened FieldTypes
  import opened Namespaces
  import opened Connection
  import opened StrideTranslator
  import opened TableHandle
  import opened Messages

  /** What `create_table` sends: the table name, the schema, the table
      properties. */
  datatype TableCreation = TableCreation(name: string, schema: seq<NestedField>, properties: Props)

  /** The catalog service behind a client. `acceptsSchema` is the library's
      schema validation, whose code is not part of this model; a rejected
      schema panics at its `unwrap`. */
  datatype Remote = Remote(
    listNamespaces: Props -> Result<seq<NamespaceIdent>>,
    createNamespace: (Props, NamespaceIdent, Props) -> Result<NamespaceIdent>,
    tableExists: (Props, TableIdent) -> Result<bool>,
    dropTable: (Props, TableIdent) -> Result<()>,
    createTable: (Props, NamespaceIdent, TableCreation) -> Result<()>,
    loadTable: (Props, TableIdent) -> Result<()>,
    renameTable: (Props, TableIdent, TableIdent) -> Result<()>,
    acceptsSchema: seq<NestedField> -> bool)

  const RenamedKey: string := "renamed"
  const DropErrorName: string := "error"

  /** The answer of `create_table` and `load_table`: a table handle, or
      an error message. */
  datatype TableReply = TableOk(handle: SmartTable) | TableError(message: string)

  /** `rest_catalog_list_namespaces`: every namespace as its parts, or
      one pseudo-namespace whose only part is the prefixed error. */
  function ListNamespaces(h: CatalogHandle, remote: Remote): (r: (Atom, seq<HostNamespace>))
    ensures var listed := remote.listNamespaces(ConnectionProps(h));
            listed.Ok? ==>
              && r.0 == OkAtom && |r.1| == |listed.value|
              && forall i | 0 <= i < |r.1| :: r.1[i].parts == listed.value[i].parts
    ensures var listed := remote.listNamespaces(ConnectionProps(h));
            listed.Err? ==> r == (ErrorAtom, [HostNamespace([ListNamespacesPrefix + listed.error])])
  {
    match remote.listNamespaces(ConnectionProps(h))
    case Ok(namespaces) => (OkAtom, seq(|namespaces|, i requires 0 <= i < |namespaces| => FromNamespace(namespaces[i])))
    case Err(e) => (ErrorAtom, [HostNamespace([ListNamespacesPrefix + e])])
  }

  /** `rest_catalog_create_namespace`: the namespace is converted first (an
      empty one panics); then the created namespace is echoed back, or a
      pseudo-namespace holding the prefixed error. */
  function CreateNamespace(h: CatalogHandle, remote: Remote, ns: HostNamespace, properties: Props): (r: Outcome<(Atom, HostNamespace)>)
    ensures r.Panicked? <==> |ns.parts| == 0
    ensures r.Returned? ==>
              var created := remote.createNamespace(ConnectionProps(h), NamespaceIdent(ns.parts), properties);
              && (created.Ok? ==> r.value == (OkAtom, HostNamespace(created.value.parts)))
              && (created.Err? ==> r.value == (ErrorAtom, HostNamespace([CreateNamespacePrefix + created.error])))
  {
    match ToNamespace(ns)
    case Panicked(m) => Panicked(m)
    case Returned(ident) =>
      match remote.createNamespace(ConnectionProps(h), ident, properties)
      case Ok(created) => Returned((OkAtom, FromNamespace(created)))
      case Err(e) => Returned((ErrorAtom, HostNamespace([CreateNamespacePrefix + e])))
  }

  /** `rest_catalog_table_exists`: the remote answer under `ok`; any error
      becomes `false` under `error`, with the message dropped. */
  function TableExists(h: CatalogHandle, remote: Remote, ident: HostTableIdent): (r: Outcome<(Atom, bool)>)
    ensures r.Panicked? <==> |ident.namespace.parts| == 0
    ensures r.Returned? ==>
              var answer := remote.tableExists(ConnectionProps(h), ToTableIdent(ident).value);
              && (answer.Ok? ==> r.value == (OkAtom, answer.value))
              && (answer.Err? ==> r.value == (ErrorAtom, false))
  {
    match ToTableIdent(ident)
    case Panicked(m) => Panicked(m)
    case Returned(t) =>
      match remote.tableExists(ConnectionProps(h), t)
      case Ok(found) => Returned((OkAtom, found))
      case Err(_) => Returned((ErrorAtom, false))
  }

  /** `rest_catalog_drop_table`: the identifier given is echoed back on
      success; on failure a pseudo-identifier named "error" whose namespace
      holds the prefixed message. */
  function DropTable(h: CatalogHandle, remote: Remote, ident: HostTableIdent): (r: Outcome<(Atom, HostTableIdent)>)
    ensures r.Panicked? <==> |ident.namespace.parts| == 0
    ensures r.Returned? ==>
              var dropped := remote.dropTable(ConnectionProps(h), ToTableIdent(ident).value);
              && (dropped.Ok? ==> r.value == (OkAtom, ident))
              && (dropped.Err? ==> r.value == (ErrorAtom, HostTableIdent(HostNamespace([DropTablePrefix + dropped.error]), DropErrorName)))
  {
    match ToTableIdent(ident)
    case Panicked(m) => Panicked(m)
    case Returned(t) =>
      match remote.dropTable(ConnectionProps(h), t)
      case Ok(_) => Returned((OkAtom, ident))
      case Err(e) => Returned((ErrorAtom, HostTableIdent(HostNamespace([DropTablePrefix + e]), DropErrorName)))
  }

  /** The handle `create_table` and `load_table` return: the catalog's own
      connection settings, the namespace parts joined with `.`, the table
      name, and an empty cache. */
  function HandleFor(h: CatalogHandle, ident: HostTableIdent): (r: SmartTable)
    ensures HandleConnection(r) == h
    ensures r.namespace == Join(ident.namespace.parts) && r.tableName == ident.name
    ensures r.cache.None?
  {
    NewSmartTable(h.uri, h.warehouse, h.props, Join(ident.namespace.parts), ident.name)
  }

  /** `rest_catalog_create_table`: the namespace is converted (an empty one
      panics), the fields are translated by position, the schema is built
      (a rejected one panics), and the table is created with the given name
      and properties; success answers with a fresh handle to it. */
  function CreateTable(h: CatalogHandle, remote: Remote, ident: HostTableIdent, fields: seq<IcebergField>, properties: Props): (r: Outcome<TableReply>)
    ensures r.Panicked? <==> |ident.namespace.parts| == 0 || !remote.acceptsSchema(StrideSchema(fields))
    ensures r.Returned? ==>
              var created := remote.createTable(ConnectionProps(h), NamespaceIdent(ident.namespace.parts),
                                                TableCreation(ident.name, StrideSchema(fields), properties));
              && (created.Ok? ==> r.value == TableOk(HandleFor(h, ident)))
              && (created.Err? ==> r.value == TableError(CreateTablePrefix + created.error))
  {
    match ToNamespace(ident.namespace)
    case Panicked(m) => Panicked(m)
    case Returned(ns) =>
      var schema := StrideSchema(fields);
      if !remote.acceptsSchema(schema) then Panicked(SchemaUnwrap)
      else
        match remote.createTable(ConnectionProps(h), ns, TableCreation(ident.name, schema, properties))
        case Ok(_) => Returned(TableOk(HandleFor(h, ident)))
        case Err(e) => Returned(TableError(CreateTablePrefix + e))
  }

  /** `rest_catalog_load_table`: a fresh handle when the table loads, or
      the prefixed error. */
  function LoadTable(h: CatalogHandle, remote: Remote, ident: HostTableIdent): (r: Outcome<TableReply>)
    ensures r.Panicked? <==> |ident.namespace.parts| == 0
    ensures r.Returned? ==>
              var loaded := remote.loadTable(ConnectionProps(h), ToTableIdent(ident).value);
              && (loaded.Ok? ==> r.value == TableOk(HandleFor(h, ident)))
              && (loaded.Err? ==> r.value == TableError(LoadTablePrefix + loaded.error))
  {
    match ToTableIdent(ident)
    case Panicked(m) => Panicked(m)
    case Returned(t) =>
      match remote.loadTable(ConnectionProps(h), t)
      case Ok(_) => Returned(TableOk(HandleFor(h, ident)))
      case Err(e) => Returned(TableError(LoadTablePrefix + e))
  }

  /** A table's dotted full name: namespace parts and name joined by `.`. */
  function FullName(ident: HostTableIdent): string {
    Join(ident.namespace.parts) + [Separator] + ident.name
  }

  /** `rest_catalog_rename_table`: both identifiers are converted (either
      may panic); success maps "renamed" to "<source> -> <destination>",
      failure maps "error" to the prefixed message. */
  function RenameTable(h: CatalogHandle, remote: Remote, source: HostTableIdent, target: HostTableIdent): (r: Outcome<(Atom, Props)>)
    ensures r.Panicked? <==> |source.namespace.parts| == 0 || |target.namespace.parts| == 0
    ensures r.Returned? ==>
              var renamed := remote.renameTable(ConnectionProps(h), ToTableIdent(source).value, ToTableIdent(target).value);
              && (renamed.Ok? ==> r.value == (OkAtom, map[RenamedKey := FullName(source) + " -> " + FullName(target)]))
              && (renamed.Err? ==> r.value == (ErrorAtom, map[ErrorKey := RenameTablePrefix + renamed.error]))
  {
    match ToTableIdent(source)
    case Panicked(m) => Panicked(m)
    case Returned(from) =>
      match ToTableIdent(target)
      case Panicked(m) => Panicked(m)
      case Returned(to) =>
        match remote.renameTable(ConnectionProps(h), from, to)
        case Ok(_) => Returned((OkAtom, map[RenamedKey := FullName(source) + " -> " + FullName(target)]))
        case Err(e) => Returned((ErrorAtom, map[ErrorKey := RenameTablePrefix + e]))
  }

  /*** Properties across calls ***/

  /** A handle returned by `load_table` reaches the same table again: it
      connects with the catalog's settings, and its rebuilt identifier is
      the one the table was loaded by exactly when no namespace part
      contains a `.` (a dotted part is split into several on the way
      back). */
  lemma LoadedHandleFindsTable(h: CatalogHandle, remote: Remote, ident: HostTableIdent)
    requires LoadTable(h, remote, ident).Returned? && LoadTable(h, remote, ident).value.TableOk?
    ensures var handle := LoadTable(h, remote, ident).value.handle;
            && ConnectionProps(HandleConnection(handle)) == ConnectionProps(h)
            && (BuildTableIdent(handle) == ToTableIdent(ident).value <==> SeparatorFree(ident.namespace.parts))
  {
    var handle := LoadTable(h, remote, ident).value.handle;
    ParseJoinedNamespace(ident.namespace.parts);
    assert BuildTableIdent(handle).namespace == ParseNamespace(Join(ident.namespace.parts));
  }

  /** The same for a handle returned by `create_table`. */
  lemma CreatedHandleFindsTable(h: CatalogHandle, remote: Remote, ident: HostTableIdent, fields: seq<IcebergField>, properties: Props)
    requires CreateTable(h, remote, ident, fields, properties).Returned?
    requires CreateTable(h, remote, ident, fields, properties).value.TableOk?
    ensures var handle := CreateTable(h, remote, ident, fields, properties).value.handle;
            && ConnectionProps(HandleConnection(handle)) == ConnectionProps(h)
            && (BuildTableIdent(handle) == ToTableIdent(ident).value <==> SeparatorFree(ident.namespace.parts))
  {
    var handle := CreateTable(h, remote, ident, fields, properties).value.handle;
    ParseJoinedNamespace(ident.namespace.parts);
    assert BuildTableIdent(handle).namespace == ParseNamespace(Join(ident.namespace.parts));
  }

  /** `table_exists` answers `false` both when the table is absent and when
      the lookup fails; only the atom tells the two apart. */
  lemma ExistsErrorLooksAbsent(h: CatalogHandle, remote: Remote, ident: HostTableIdent)
    requires |ident.namespace.parts| > 0
    ensures TableExists(h, remote, ident).value.1 == true
            <==> remote.tableExists(ConnectionProps(h), ToTableIdent(ident).value) == Ok(true)
  {
  }

  /** The rename message for `a.b.t1` renamed to `c.d.t2`. */
  lemma RenameMessageExample(h: CatalogHandle, remote: Remote)
    requires remote.renameTable(ConnectionProps(h), TableIdent(NamespaceIdent(["a", "b"]), "t1"),
                                TableIdent(NamespaceIdent(["c", "d"]), "t2")).Ok?
    ensures RenameTable(h, remote, HostTableIdent(HostNamespace(["a", "b"]), "t1"),
                        HostTableIdent(HostNamespace(["c", "d"]), "t2"))
            == Returned((OkAtom, map["renamed" := "a.b.t1 -> c.d.t2"]))
  {
    var source := HostTableIdent(HostNamespace(["a", "b"]), "t1");
    var target := HostTableIdent(HostNamespace(["c", "d"]), "t2");
    assert FullName(source) + " -> " + FullName(target) == "a.b.t1 -> c.d.t2" by {
      TwoPartFullName("a", "b", "t1");
      TwoPartFullName("c", "d", "t2");
    }
  }

  lemma TwoPartFullName(outer: string, inner: string, name: string)
    ensures FullName(HostTableIdent(HostNamespace([outer, inner]), name)) == outer + "." + inner + "." + name
  {
    assert [outer, inner][1..] == [inner];
    assert Join([outer, inner]) == outer + [Separator] + inner;
    assert [Separator] == ".";
  }

  /** Splitting a full name gives the namespace parts followed by the table
      name exactly when neither contains a `.`. */
  lemma FullNameSplits(ident: HostTableIdent)
    requires |ident.namespace.parts| > 0
    ensures Split(FullName(ident)) == ident.namespace.parts + [ident.name]
            <==> SeparatorFree(ident.namespace.parts + [ident.name])
  {
    var parts := ident.namespace.parts + [ident.name];
    assert parts[..|parts| - 1] == ident.namespace.parts;
    JoinSnoc(ident.namespace.parts, ident.name);
    SplitJoin(parts);
  }

  lemma {:induction false} JoinSnoc(parts: seq<string>, last: string)
    requires |parts| > 0
    ensures Join(parts + [last]) == Join(parts) + [Separator] + last
    decreases |parts|
  {
    if |parts| == 1 {
      assert (parts + [last])[1..] == [last];
    } else {
      assert (parts + [last])[1..] == parts[1..] + [last];
      JoinSnoc(parts[1..], last);
    }
  }
}

=== FILE: connection.dfy ===
/** Connection settings: the authentication property map built when a
    catalog handle is created, the overlay of `uri` and `warehouse` applied
    each time a catalog client is built from a handle, and the legacy
    four-way configuration builder. */
module Connection {
  import opened Base

  /** The host-side catalog configuration (`CatalogConfig` in
      native/ex_iceberg/src/catalog.rs, `CatalogConfigParams` in the legacy
      file): the endpoint, an optional warehouse and six optional
      authentication settings. */
  datatype CatalogConfig = CatalogConfig(
    uri: string,
    warehouse: Option<string>,
    token: Option<string>,
    credential: Option<string>,
    oauth2ServerUri: Option<string>,
    scope: Option<string>,
    audience: Option<string>,
    resource: Option<string>)

  /** What a catalog handle keeps (`RestCatalogResource` without its
      runtime): the endpoint, the optional warehouse and the property map. */
  datatype CatalogHandle = CatalogHandle(uri: string, warehouse: Option<string>, props: Props)

  const UriKey: string := "uri"
  const WarehouseKey: string := "warehouse"

  /** The property key of each authentication setting, and the setting it
      carries; any other key belongs to no setting. This is the reference
      the property builders are checked against. */
  function AuthSetting(c: CatalogConfig, key: string): Option<string> {
    if key == "credential" then c.credential
    else if key == "oauth2-server-uri" then c.oauth2ServerUri
    else if key == "scope" then c.scope
    else if key == "token" then c.token
    else if key == "audience" then c.audience
    else if key == "resource" then c.resource
    else None
  }

  /** `if let Some(v) = value { props.insert(key, v) }`. */
  function InsertSome(props: Props, key: string, value: Option<string>): Props {
    match value
    case Some(v) => props[key := v]
    case None => props
  }

  /** A run of `if let Some(..)` inserts, performed left to right. */
  function InsertAll(props: Props, entries: seq<(string, Option<string>)>): Props
    decreases |entries|
  {
    if |entries| == 0 then props
    else InsertAll(InsertSome(props, entries[0].0, entries[0].1), entries[1..])
  }

  /** The optional value listed under `key`, the first one if several. */
  function EntryFor(entries: seq<(string, Option<string>)>, key: string): Option<string> {
    if |entries| == 0 then None
    else if entries[0].0 == key then entries[0].1
    else EntryFor(entries[1..], key)
  }

  /** Looking a key up in six entries, one entry at a time. */
  lemma EntryForUnfold(entries: seq<(string, Option<string>)>, key: string)
    requires |entries| == 6
    ensures EntryFor(entries, key)
            == if entries[0].0 == key then entries[0].1
               else if entries[1].0 == key then entries[1].1
               else if entries[2].0 == key then entries[2].1
               else if entries[3].0 == key then entries[3].1
               else if entries[4].0 == key then entries[4].1
               else if entries[5].0 == key then entries[5].1
               else None
  {
    assert EntryFor(entries[5..], key) == (if entries[5].0 == key then entries[5].1 else EntryFor(entries[6..], key));
    assert EntryFor(entries[4..], key) == (if entries[4].0 == key then entries[4].1 else EntryFor(entries[5..], key)) by {
      assert entries[4..][1..] == entries[5..];
    }
    assert EntryFor(entries[3..], key) == (if entries[3].0 == key then entries[3].1 else EntryFor(entries[4..], key)) by {
      assert entries[3..][1..] == entries[4..];
    }
    assert EntryFor(entries[2..], key) == (if entries[2].0 == key then entries[2].1 else EntryFor(entries[3..], key)) by {
      assert entries[2..][1..] == entries[3..];
    }
    assert EntryFor(entries[1..], key) == (if entries[1].0 == key then entries[1].1 else EntryFor(entries[2..], key)) by {
      assert entries[1..][1..] == entries[2..];
    }
  }

  predicate DistinctKeys(entries: seq<(string, Option<string>)>) {
    forall i, j | 0 <= i < j < |entries| :: entries[i].0 != entries[j].0
  }

  lemma {:induction false} EntryForAbsent(entries: seq<(string, Option<string>)>, key: string)
    requires forall i | 0 <= i < |entries| :: entries[i].0 != key
    ensures EntryFor(entries, key) == None
    decreases |entries|
  {
    if |entries| > 0 {
      EntryForAbsent(entries[1..], key);
    }
  }

  /** With distinct keys, a run of inserts adds exactly the present entries
      and leaves every other key of the starting map as it was. */
  lemma {:induction false} InsertAllLookup(props: Props, entries: seq<(string, Option<string>)>)
    requires DistinctKeys(entries)
    ensures forall key :: key in InsertAll(props, entries) <==> EntryFor(entries, key).Some? || key in props
    ensures forall key | key in InsertAll(props, entries) ::
              InsertAll(props, entries)[key]
              == if EntryFor(entries, key).Some? then EntryFor(entries, key).value else props[key]
    decreases |entries|
  {
    if |entries| > 0 {
      var first := entries[0];
      var rest := entries[1..];
      var next := InsertSome(props, first.0, first.1);
      assert DistinctKeys(rest) by {
        forall i, j | 0 <= i < j < |rest| ensures rest[i].0 != rest[j].0 {
          assert rest[i] == entries[i + 1] && rest[j] == entries[j + 1];
        }
      }
      assert EntryFor(rest, first.0) == None by {
        forall i | 0 <= i < |rest| ensures rest[i].0 != first.0 {
          assert rest[i] == entries[i + 1];
        }
        EntryForAbsent(rest, first.0);
      }
      InsertAllLookup(next, rest);
    }
  }

  /** The settings of `rest_catalog_new` (catalog.rs) in insertion order:
      credential, oauth2-server-uri, scope, token, audience, resource. */
  function AuthEntries(c: CatalogConfig): (r: seq<(string, Option<string>)>)
    ensures DistinctKeys(r)
    ensures forall key :: EntryFor(r, key) == AuthSetting(c, key)
  {
    var entries := [("credential", c.credential), ("oauth2-server-uri", c.oauth2ServerUri), ("scope", c.scope),
                   ("token", c.token), ("audience", c.audience), ("resource", c.resource)];
    assert forall key :: EntryFor(entries, key) == AuthSetting(c, key) by {
      forall key ensures EntryFor(entries, key) == AuthSetting(c, key) {
        EntryForUnfold(entries, key);
      }
    }
    entries
  }

  /** The legacy `rest_catalog_new` (lib_old.rs) inserts the token first. */
  function LegacyAuthEntries(c: CatalogConfig): (r: seq<(string, Option<string>)>)
    ensures DistinctKeys(r)
    ensures forall key :: EntryFor(r, key) == AuthSetting(c, key)
  {
    var entries := [("token", c.token), ("credential", c.credential), ("oauth2-server-uri", c.oauth2ServerUri),
                   ("scope", c.scope), ("audience", c.audience), ("resource", c.resource)];
    assert forall key :: EntryFor(entries, key) == AuthSetting(c, key) by {
      forall key ensures EntryFor(entries, key) == AuthSetting(c, key) {
        EntryForUnfold(entries, key);
      }
    }
    entries
  }

  /** The property map `rest_catalog_new` builds: each present setting
      becomes one entry under its fixed key; absent settings add nothing,
      and the endpoint and the warehouse are kept out of it. */
  function AuthProps(c: CatalogConfig): (r: Props)
    ensures forall key :: key in r <==> AuthSetting(c, key).Some?
    ensures forall key | key in r :: r[key] == AuthSetting(c, key).value
    ensures UriKey !in r && WarehouseKey !in r
  {
    InsertAllLookup(map[], AuthEntries(c));
    InsertAll(map[], AuthEntries(c))
  }

  /** The legacy property map, with the token inserted first. */
  function LegacyAuthProps(c: CatalogConfig): (r: Props)
    ensures forall key :: key in r <==> AuthSetting(c, key).Some?
    ensures forall key | key in r :: r[key] == AuthSetting(c, key).value
  {
    InsertAllLookup(map[], LegacyAuthEntries(c));
    InsertAll(map[], LegacyAuthEntries(c))
  }

  /** The insertion order differs, but the keys are distinct, so the
      legacy and the live builders produce the same map. */
  lemma LegacyAuthPropsAgree(c: CatalogConfig)
    ensures LegacyAuthProps(c) == AuthProps(c)
  {
    var legacy := LegacyAuthProps(c);
    var live := AuthProps(c);
    assert legacy.Keys == live.Keys;
  }

  /** `rest_catalog_new`: always answers `ok` with a handle that keeps the
      endpoint and warehouse as given and the authentication map. */
  function CatalogNew(c: CatalogConfig): (r: (Atom, CatalogHandle))
    ensures r.0 == OkAtom
    ensures r.1.uri == c.uri && r.1.warehouse == c.warehouse
    ensures forall key :: key in r.1.props <==> AuthSetting(c, key).Some?
    ensures r.1.props == AuthProps(c)
  {
    (OkAtom, CatalogHandle(c.uri, c.warehouse, AuthProps(c)))
  }

  /** The legacy `rest_catalog_new`, with its own insertion order. */
  function LegacyCatalogNew(c: CatalogConfig): (r: (Atom, CatalogHandle))
    ensures r.0 == OkAtom
    ensures r.1.uri == c.uri && r.1.warehouse == c.warehouse
    ensures forall key :: key in r.1.props <==> AuthSetting(c, key).Some?
    ensures forall key | key in r.1.props :: r.1.props[key] == AuthSetting(c, key).value
  {
    (OkAtom, CatalogHandle(c.uri, c.warehouse, LegacyAuthProps(c)))
  }

  /** Both generations of `rest_catalog_new` build the same handle. */
  lemma CatalogNewAgree(c: CatalogConfig)
    ensures LegacyCatalogNew(c) == CatalogNew(c)
  {
    LegacyAuthPropsAgree(c);
  }

  /** The property map a catalog client is built from (`get_catalog` of
      `RestCatalogResource` and of `SmartTableResource`): the stored map,
      then `uri` set to the endpoint, then `warehouse` set when there is
      one. Both overrides win over same-named stored entries; every other
      entry passes through unchanged. */
  function ConnectionProps(h: CatalogHandle): (r: Props)
    ensures UriKey in r && r[UriKey] == h.uri
    ensures h.warehouse.Some? ==> WarehouseKey in r && r[WarehouseKey] == h.warehouse.value
    ensures h.warehouse.None? ==> (WarehouseKey in r <==> WarehouseKey in h.props)
    ensures forall key | key != UriKey && key != WarehouseKey ::
              (key in r <==> key in h.props) && (key in r ==> r[key] == h.props[key])
    ensures h.warehouse.None? && WarehouseKey in h.props ==> r[WarehouseKey] == h.props[WarehouseKey]
  {
    InsertSome(h.props[UriKey := h.uri], WarehouseKey, h.warehouse)
  }

  /** For a handle made by `rest_catalog_new` the client properties hold
      exactly the endpoint, the warehouse when it is given, and the present
      authentication settings. */
  lemma NewHandleConnectionProps(c: CatalogConfig)
    ensures var r := ConnectionProps(CatalogNew(c).1);
            && r[UriKey] == c.uri
            && (WarehouseKey in r <==> c.warehouse.Some?)
            && (forall key | key != UriKey && key != WarehouseKey ::
                  (key in r <==> AuthSetting(c, key).Some?)
                  && (key in r ==> r[key] == AuthSetting(c, key).value))
  {
  }

  /*** The legacy configuration builder ***/

  /** The legacy `RestCatalogConfig` as it leaves the builder: the endpoint,
      the warehouse if one was set, and the property map if one was
      attached. */
  datatype RestCatalogConfig = RestCatalogConfig(uri: string, warehouse: Option<string>, props: Option<Props>)

  /** `build_config` (lib_old.rs): a four-arm match on whether there is a
      warehouse and whether the property map is empty. The endpoint is
      always set, the warehouse exactly when there is one, and the map
      exactly when it is non-empty. */
  function BuildConfig(h: CatalogHandle): (r: RestCatalogConfig)
    ensures r.uri == h.uri
    ensures r.warehouse == h.warehouse
    ensures r.props.Some? <==> h.props != map[]
    ensures r.props.Some? ==> r.props.value == h.props
  {
    match (h.warehouse, h.props == map[])
    case (Some(w), false) => RestCatalogConfig(h.uri, Some(w), Some(h.props))
    case (Some(w), true) => RestCatalogConfig(h.uri, Some(w), None)
    case (None, false) => RestCatalogConfig(h.uri, None, Some(h.props))
    case (None, true) => RestCatalogConfig(h.uri, None, None)
  }

  /** Leaving an empty map unattached loses nothing: taking an unattached
      map as empty (the builder's default), every arm yields the handle's
      own map, so the four arms behave as one unconditional rule. */
  lemma BuildConfigKeepsProps(h: CatalogHandle)
    ensures BuildConfig(h).props.GetOr(map[]) == h.props
    ensures BuildConfig(h) == RestCatalogConfig(h.uri, h.warehouse, if h.props == map[] then None else Some(h.props))
  {
  }
}

=== FILE: counter_translator.dfy ===
/** The counter-based schema translator of the legacy create-table call
    (native/ex_iceberg/src/lib_old.rs). One mutable counter, starting at
    1000, is threaded through a depth-first traversal; a container takes its
    child ids from the counter only after translating the child's own type,
    so ids come out in post-order. Here the counter is threaded explicitly:
    each translation takes the next free id and returns the next free id
    after it. */
module CounterTranslator {
  import opened Base
  import opened SpecTypes
  import opened LegacyTypes

  /** The first id the counter hands out in a create-table call. */
  const FirstCounterId: int := 1000

  /*** Reference view: id slots ***/

  /** The id slots a type creates, in the order their ids are decided: a
      list element or map key/value slot is always filled from the counter
      (`None`), a struct member slot holds the member's explicit id if it
      has one. */
  function Slots(t: IcebergType): seq<Option<int>>
    decreases t, 1
  {
    match t
    case List(e, _) => Slots(e) + [None]
    case Map(k, v, _) => Slots(k) + [None] + Slots(v) + [None]
    case Struct(fs) => MemberSlots(fs)
    case Scalar(_) => []
  }

  function MemberSlots(fs: seq<LegacyField>): seq<Option<int>>
    decreases fs, 0
  {
    if |fs| == 0 then []
    else Slots(fs[0].fieldType) + [fs[0].fieldId] + MemberSlots(fs[1..])
  }

  /** Number of slots filled from the counter. */
  function CountAuto(slots: seq<Option<int>>): nat {
    if |slots| == 0 then 0
    else (if slots[0].None? then 1 else 0) + CountAuto(slots[1..])
  }

  /** The ids a sequence of slots receives when the counter starts at
      `next`: explicit ids verbatim, counter ids consecutively. */
  function Fill(slots: seq<Option<int>>, next: int): (r: seq<int>)
    ensures |r| == |slots|
  {
    if |slots| == 0 then []
    else match slots[0]
      case None => [next] + Fill(slots[1..], next + 1)
      case Some(id) => [id] + Fill(slots[1..], next)
  }

  /** How far a type advances the counter: one per list, two per map, one
      per struct member without an explicit id, nothing for primitives. */
  function Increment(t: IcebergType): nat
    decreases t, 1
  {
    match t
    case List(e, _) => Increment(e) + 1
    case Map(k, v, _) => Increment(k) + Increment(v) + 2
    case Struct(fs) => MembersIncrement(fs)
    case Scalar(_) => 0
  }

  function MembersIncrement(fs: seq<LegacyField>): nat
    decreases fs, 0
  {
    if |fs| == 0 then 0
    else Increment(fs[0].fieldType) + (if fs[0].fieldId.None? then 1 else 0) + MembersIncrement(fs[1..])
  }

  /*** The translator ***/

  /** The catalog primitive kind of a scalar variant: each variant maps to
      the kind of the same name, Decimal and Fixed keep their parameters. */
  function SpecPrimitive(k: ScalarType): PrimitiveType {
    match k
    case Boolean => PrimitiveType.Boolean
    case Int => PrimitiveType.Int
    case Long => PrimitiveType.Long
    case Float => PrimitiveType.Float
    case Double => PrimitiveType.Double
    case String => PrimitiveType.String
    case Uuid => PrimitiveType.Uuid
    case Date => PrimitiveType.Date
    case Time => PrimitiveType.Time
    case Timestamp => PrimitiveType.Timestamp
    case Timestamptz => PrimitiveType.Timestamptz
    case TimestampNs => PrimitiveType.TimestampNs
    case TimestamptzNs => PrimitiveType.TimestamptzNs
    case Binary => PrimitiveType.Binary
    case Decimal(p, s) => PrimitiveType.Decimal(p, s)
    case Fixed(n) => PrimitiveType.Fixed(n)
  }

  /** `iceberg_type_to_spec_type`: translates a type, drawing ids from the
      counter `next`, and returns the translated type with the counter's
      new value. */
  function Translate(t: IcebergType, next: int): (r: (SpecType, int))
    ensures r.1 == next + Increment(t)
    ensures t.List? ==> r.0.ListOf? && r.0.element.name == "element"
                        && r.0.element.required == t.elementRequired
    ensures t.Map? ==> r.0.MapOf? && r.0.key.name == "key" && r.0.key.required
                       && r.0.value.name == "value" && r.0.value.required == t.valueRequired
    ensures t.Struct? ==> r.0.StructOf? && |r.0.fields| == |t.fields|
    ensures t.Struct? ==> forall i | 0 <= i < |t.fields| ::
              && r.0.fields[i].name == t.fields[i].name
              && r.0.fields[i].required == t.fields[i].required
              && (t.fields[i].fieldId.Some? ==> r.0.fields[i].id == t.fields[i].fieldId.value)
    ensures t.Scalar? ==> r.0 == Primitive(SpecPrimitive(t.kind))
    decreases t, 1
  {
    match t
    case List(e, required) =>
      var element := Translate(e, next);
      (ListOf(NestedField(element.1, "element", required, element.0)), element.1 + 1)
    case Map(k, v, valueRequired) =>
      var key := Translate(k, next);
      var value := Translate(v, key.1 + 1);
      (MapOf(NestedField(key.1, "key", true, key.0),
             NestedField(value.1, "value", valueRequired, value.0)),
       value.1 + 1)
    case Struct(fs) =>
      var members := TranslateMembers(fs, next);
      (StructOf(members.0), members.1)
    case Scalar(k) => (Primitive(SpecPrimitive(k)), next)
  }

  /** The struct loop of `iceberg_type_to_spec_type`: members in input
      order, each translated before its own id is decided. */
  function TranslateMembers(fs: seq<LegacyField>, next: int): (r: (seq<NestedField>, int))
    ensures r.1 == next + MembersIncrement(fs)
    ensures |r.0| == |fs|
    ensures forall i | 0 <= i < |fs| :: r.0[i].name == fs[i].name && r.0[i].required == fs[i].required
    ensures forall i | 0 <= i < |fs| && fs[i].fieldId.Some? :: r.0[i].id == fs[i].fieldId.value
    decreases fs, 0
  {
    if |fs| == 0 then ([], next)
    else
      var f := fs[0];
      var translated := Translate(f.fieldType, next);
      var id := f.fieldId.GetOr(translated.1);
      var afterId := if f.fieldId.None? then translated.1 + 1 else translated.1;
      var rest := TranslateMembers(fs[1..], afterId);
      ([NestedField(id, f.name, f.required, translated.0)] + rest.0, rest.1)
  }

  /*** Slot arithmetic ***/

  lemma {:induction false} CountAutoAppend(a: seq<Option<int>>, b: seq<Option<int>>)
    ensures CountAuto(a + b) == CountAuto(a) + CountAuto(b)
    decreases |a|
  {
    if |a| == 0 {
      assert a + b == b;
    } else {
      assert (a + b)[1..] == a[1..] + b;
      CountAutoAppend(a[1..], b);
    }
  }

  /** Filling a concatenation fills the second part where the first part
      left the counter. */
  lemma {:induction false} FillAppend(a: seq<Option<int>>, b: seq<Option<int>>, next: int)
    ensures Fill(a + b, next) == Fill(a, next) + Fill(b, next + CountAuto(a))
    decreases |a|
  {
    if |a| == 0 {
      assert a + b == b;
    } else {
      var after := if a[0].None? then next + 1 else next;
      var head := if a[0].None? then next else a[0].value;
      assert (a + b)[0] == a[0];
      assert (a + b)[1..] == a[1..] + b;
      assert Fill(a + b, next) == [head] + Fill(a[1..] + b, after);
      assert Fill(a, next) == [head] + Fill(a[1..], after);
      FillAppend(a[1..], b, after);
    }
  }

  /** The value filled into slot `i`: the explicit id, or the counter
      advanced by the counter slots before it. */
  lemma {:induction false} FillAt(slots: seq<Option<int>>, next: int, i: int)
    requires 0 <= i < |slots|
    ensures slots[i].Some? ==> Fill(slots, next)[i] == slots[i].value
    ensures slots[i].None? ==> Fill(slots, next)[i] == next + CountAuto(slots[..i])
    decreases i
  {
    if i > 0 {
      assert slots[..i][1..] == slots[1..][..i - 1];
      FillAt(slots[1..], if slots[0].None? then next + 1 else next, i - 1);
    }
  }

  /** Every id the counter hands out while filling `slots` from `next` lies
      in `[next, next + CountAuto(slots))`, and later counter slots get
      strictly larger ids: counter ids are pairwise distinct. */
  lemma {:induction false} CounterIdsIncrease(slots: seq<Option<int>>, next: int)
    ensures forall i | 0 <= i < |slots| && slots[i].None? ::
              next <= Fill(slots, next)[i] < next + CountAuto(slots)
    ensures forall i, j | 0 <= i < j < |slots| && slots[i].None? && slots[j].None? ::
              Fill(slots, next)[i] < Fill(slots, next)[j]
  {
    forall i | 0 <= i < |slots| && slots[i].None?
      ensures next <= Fill(slots, next)[i] < next + CountAuto(slots)
    {
      FillAt(slots, next, i);
      assert slots == slots[..i] + slots[i..];
      CountAutoAppend(slots[..i], slots[i..]);
    }
    forall i, j | 0 <= i < j < |slots| && slots[i].None? && slots[j].None?
      ensures Fill(slots, next)[i] < Fill(slots, next)[j]
    {
      FillAt(slots, next, i);
      FillAt(slots, next, j);
      assert slots[..j] == slots[..i] + slots[i..j];
      CountAutoAppend(slots[..i], slots[i..j]);
    }
  }

  /** With no explicit ids the counter fills slot `i` with `next + i`. */
  lemma {:induction false} FillAllAuto(slots: seq<Option<int>>, next: int)
    requires forall i | 0 <= i < |slots| :: slots[i].None?
    ensures forall i | 0 <= i < |slots| :: Fill(slots, next)[i] == next + i
    ensures CountAuto(slots) == |slots|
    decreases |slots|
  {
    if |slots| > 0 {
      FillAllAuto(slots[1..], next + 1);
    }
  }

  /*** The translator against the reference view ***/

  /** The counter advance of a type is the number of its counter slots. */
  lemma {:induction false} IncrementCountsAutoSlots(t: IcebergType)
    ensures Increment(t) == CountAuto(Slots(t))
    decreases t, 1
  {
    match t
    case List(e, _) =>
      IncrementCountsAutoSlots(e);
      CountAutoAppend(Slots(e), [None]);
    case Map(k, v, _) =>
      IncrementCountsAutoSlots(k);
      IncrementCountsAutoSlots(v);
      CountAutoAppend(Slots(k), [None]);
      CountAutoAppend(Slots(k) + [None], Slots(v));
      CountAutoAppend(Slots(k) + [None] + Slots(v), [None]);
    case Struct(fs) => MembersIncrementCountsAutoSlots(fs);
    case _ =>
  }

  lemma {:induction false} MembersIncrementCountsAutoSlots(fs: seq<LegacyField>)
    ensures MembersIncrement(fs) == CountAuto(MemberSlots(fs))
    decreases fs, 0
  {
    if |fs| > 0 {
      IncrementCountsAutoSlots(fs[0].fieldType);
      MembersIncrementCountsAutoSlots(fs[1..]);
      CountAutoAppend(Slots(fs[0].fieldType), [fs[0].fieldId]);
      CountAutoAppend(Slots(fs[0].fieldType) + [fs[0].fieldId], MemberSlots(fs[1..]));
    }
  }

  /** Filling the slot shapes of a list, a map and a struct member. */
  lemma {:induction false} FillListShape(es: seq<Option<int>>, next: int)
    ensures Fill(es + [None], next) == Fill(es, next) + [next + CountAuto(es)]
  {
    FillAppend(es, [None], next);
    assert Fill([None], next + CountAuto(es)) == [next + CountAuto(es)];
  }

  lemma {:induction false} FillMapShape(ks: seq<Option<int>>, vs: seq<Option<int>>, next: int)
    ensures var keyId := next + CountAuto(ks);
            Fill(ks + [None] + vs + [None], next)
            == Fill(ks, next) + [keyId] + Fill(vs, keyId + 1) + [keyId + 1 + CountAuto(vs)]
  {
    var keyId := next + CountAuto(ks);
    FillListShape(ks, next);
    CountAutoAppend(ks, [None]);
    FillAppend(ks + [None], vs, next);
    CountAutoAppend(ks + [None], vs);
    FillListShape(ks + [None] + vs, next);
  }

  lemma {:induction false} FillMemberShape(ts: seq<Option<int>>, id: Option<int>, rest: seq<Option<int>>, next: int)
    ensures var afterType := next + CountAuto(ts);
            Fill(ts + [id] + rest, next)
            == Fill(ts, next) + [id.GetOr(afterType)]
               + Fill(rest, afterType + (if id.None? then 1 else 0))
  {
    FillAppend(ts, [id], next);
    CountAutoAppend(ts, [id]);
    assert Fill([id], next + CountAuto(ts)) == [id.GetOr(next + CountAuto(ts))];
    FillAppend(ts + [id], rest, next);
  }

  /** One step of the translator on a list, a map and a struct member list:
      each child's id is the counter value after the child's own type. */
  lemma {:induction false} TranslateListStep(e: IcebergType, required: bool, next: int)
    ensures Translate(List(e, required), next).0
         == ListOf(NestedField(next + Increment(e), "element", required, Translate(e, next).0))
  {
  }

  lemma {:induction false} MapUnfold(k: IcebergType, v: IcebergType, valueRequired: bool, next: int)
    ensures var key := Translate(k, next);
            var value := Translate(v, key.1 + 1);
            Translate(Map(k, v, valueRequired), next).0
            == MapOf(NestedField(key.1, "key", true, key.0), NestedField(value.1, "value", valueRequired, value.0))
  {
  }

  lemma {:induction false} TranslateMapStep(k: IcebergType, v: IcebergType, valueRequired: bool, next: int)
    ensures Translate(Map(k, v, valueRequired), next).0
         == MapOf(NestedField(next + Increment(k), "key", true, Translate(k, next).0),
                  NestedField(next + Increment(k) + 1 + Increment(v), "value", valueRequired,
                              Translate(v, next + Increment(k) + 1).0))
  {
    MapUnfold(k, v, valueRequired, next);
  }

  lemma {:induction false} TranslateMembersStep(fs: seq<LegacyField>, next: int)
    requires |fs| > 0
    ensures TranslateMembers(fs, next).0
         == [NestedField(fs[0].fieldId.GetOr(next + Increment(fs[0].fieldType)), fs[0].name, fs[0].required,
                         Translate(fs[0].fieldType, next).0)]
            + TranslateMembers(fs[1..], next + Increment(fs[0].fieldType) + (if fs[0].fieldId.None? then 1 else 0)).0
  {
    var f := fs[0];
    var translated := Translate(f.fieldType, next);
    assert translated.1 == next + Increment(f.fieldType);
  }

  lemma {:induction false} MemberIdsStep(fs: seq<LegacyField>, next: int)
    requires |fs| > 0
    ensures var afterType := next + Increment(fs[0].fieldType);
            MemberIds(TranslateMembers(fs, next).0)
            == Ids(Translate(fs[0].fieldType, next).0) + [fs[0].fieldId.GetOr(afterType)]
               + MemberIds(TranslateMembers(fs[1..], afterType + (if fs[0].fieldId.None? then 1 else 0)).0)
  {
    var f := fs[0];
    var afterType := next + Increment(f.fieldType);
    var rest := TranslateMembers(fs[1..], afterType + (if f.fieldId.None? then 1 else 0)).0;
    var members := [NestedField(f.fieldId.GetOr(afterType), f.name, f.required, Translate(f.fieldType, next).0)] + rest;
    TranslateMembersStep(fs, next);
    assert members[1..] == rest;
  }

  lemma {:induction false} MemberSlotsStep(fs: seq<LegacyField>, next: int)
    requires |fs| > 0
    ensures var afterType := next + Increment(fs[0].fieldType);
            Fill(MemberSlots(fs), next)
            == Fill(Slots(fs[0].fieldType), next) + [fs[0].fieldId.GetOr(afterType)]
               + Fill(MemberSlots(fs[1..]), afterType + (if fs[0].fieldId.None? then 1 else 0))
  {
    IncrementCountsAutoSlots(fs[0].fieldType);
    FillMemberShape(Slots(fs[0].fieldType), fs[0].fieldId, MemberSlots(fs[1..]), next);
  }

  /** The ids the translator writes into the tree are exactly the slots
      filled from the counter's starting value, in post-order. */
  lemma {:induction false} TranslateFillsSlots(t: IcebergType, next: int)
    ensures Ids(Translate(t, next).0) == Fill(Slots(t), next)
    decreases t, 2
  {
    match t
    case List(e, required) => ListFillsSlots(e, required, next);
    case Map(k, v, valueRequired) => MapFillsSlots(k, v, valueRequired, next);
    case Struct(fs) => TranslateMembersFillsSlots(fs, next);
    case _ =>
  }

  lemma {:induction false} ListFillsSlots(e: IcebergType, required: bool, next: int)
    ensures Ids(Translate(List(e, required), next).0) == Fill(Slots(List(e, required)), next)
    decreases List(e, required), 0
  {
    ListIdsShape(e, required, next);
    TranslateFillsSlots(e, next);
    IncrementCountsAutoSlots(e);
    FillListShape(Slots(e), next);
  }

  lemma {:induction false} ListIdsShape(e: IcebergType, required: bool, next: int)
    ensures Ids(Translate(List(e, required), next).0) == Ids(Translate(e, next).0) + [next + Increment(e)]
  {
    TranslateListStep(e, required, next);
  }

  lemma {:induction false} MapFillsSlots(k: IcebergType, v: IcebergType, valueRequired: bool, next: int)
    ensures Ids(Translate(Map(k, v, valueRequired), next).0) == Fill(Slots(Map(k, v, valueRequired)), next)
    decreases Map(k, v, valueRequired), 1
  {
    MapIdsLayout(k, v, valueRequired, next);
    MapSlotsLayout(k, v, valueRequired, next);
  }

  lemma {:induction false} MapSlotsLayout(k: IcebergType, v: IcebergType, valueRequired: bool, next: int)
    ensures var keyId := next + Increment(k);
            Fill(Slots(Map(k, v, valueRequired)), next)
            == Fill(Slots(k), next) + [keyId] + Fill(Slots(v), keyId + 1) + [keyId + 1 + Increment(v)]
  {
    IncrementCountsAutoSlots(k);
    IncrementCountsAutoSlots(v);
    FillMapShape(Slots(k), Slots(v), next);
  }

  lemma {:induction false} MapIdsLayout(k: IcebergType, v: IcebergType, valueRequired: bool, next: int)
    ensures var keyId := next + Increment(k);
            Ids(Translate(Map(k, v, valueRequired), next).0)
            == Fill(Slots(k), next) + [keyId] + Fill(Slots(v), keyId + 1) + [keyId + 1 + Increment(v)]
    decreases Map(k, v, valueRequired), 0
  {
    var keyId := next + Increment(k);
    MapIdsShape(k, v, valueRequired, next);
    TranslateFillsSlots(k, next);
    TranslateFillsSlots(v, keyId + 1);
  }

  lemma {:induction false} MapIdsShape(k: IcebergType, v: IcebergType, valueRequired: bool, next: int)
    ensures var keyId := next + Increment(k);
            Ids(Translate(Map(k, v, valueRequired), next).0)
            == Ids(Translate(k, next).0) + [keyId] + Ids(Translate(v, keyId + 1).0) + [keyId + 1 + Increment(v)]
  {
    TranslateMapStep(k, v, valueRequired, next);
  }

  lemma {:induction false} TranslateMembersFillsSlots(fs: seq<LegacyField>, next: int)
    ensures MemberIds(TranslateMembers(fs, next).0) == Fill(MemberSlots(fs), next)
    decreases fs, 0
  {
    if |fs| > 0 {
      var f := fs[0];
      var afterType := next + Increment(f.fieldType);
      var afterId := afterType + (if f.fieldId.None? then 1 else 0);
      var id := f.fieldId.GetOr(afterType);
      calc {
        MemberIds(TranslateMembers(fs, next).0);
        { MemberIdsStep(fs, next); }
        Ids(Translate(f.fieldType, next).0) + [id] + MemberIds(TranslateMembers(fs[1..], afterId).0);
        { TranslateFillsSlots(f.fieldType, next);
          TranslateMembersFillsSlots(fs[1..], afterId); }
        Fill(Slots(f.fieldType), next) + [id] + Fill(MemberSlots(fs[1..]), afterId);
        { MemberSlotsStep(fs, next); }
        Fill(MemberSlots(fs), next);
      }
    }
  }

  /*** Properties of single translations ***/

  /** The scalar variant a catalog primitive kind comes from. */
  function LegacyPrimitive(p: PrimitiveType): ScalarType {
    match p
    case Boolean => ScalarType.Boolean
    case Int => ScalarType.Int
    case Long => ScalarType.Long
    case Float => ScalarType.Float
    case Double => ScalarType.Double
    case String => ScalarType.String
    case Uuid => ScalarType.Uuid
    case Date => ScalarType.Date
    case Time => ScalarType.Time
    case Timestamp => ScalarType.Timestamp
    case Timestamptz => ScalarType.Timestamptz
    case TimestampNs => ScalarType.TimestampNs
    case TimestamptzNs => ScalarType.TimestamptzNs
    case Binary => ScalarType.Binary
    case Decimal(precision, scale) => ScalarType.Decimal(precision, scale)
    case Fixed(length) => ScalarType.Fixed(length)
  }

  /** The sixteen scalar variants map one-to-one onto the catalog's
      primitive kinds: `LegacyPrimitive` undoes the mapping, Decimal's
      precision and scale and Fixed's length are carried through unchanged,
      and a scalar leaves the counter alone. */
  lemma {:induction false} PrimitiveMappingIsInjective(k: ScalarType, next: int)
    ensures Translate(Scalar(k), next) == (Primitive(SpecPrimitive(k)), next)
    ensures LegacyPrimitive(SpecPrimitive(k)) == k
    ensures k.Decimal? ==> SpecPrimitive(k) == PrimitiveType.Decimal(k.precision, k.scale)
    ensures k.Fixed? ==> SpecPrimitive(k) == PrimitiveType.Fixed(k.length)
  {
    match k
    case Decimal(_, _) =>
    case Fixed(_) =>
    case _ =>
  }

  /** Every catalog primitive kind is reached: the mapping is onto. */
  lemma {:induction false} PrimitiveMappingIsOnto(p: PrimitiveType, next: int)
    ensures Translate(Scalar(LegacyPrimitive(p)), next) == (Primitive(p), next)
  {
    match p
    case Decimal(_, _) =>
    case Fixed(_) =>
    case _ =>
  }

  /** The counter ids assigned inside one subtree lie in the range the
      subtree advances the counter over. */
  lemma {:induction false} CounterIdsWithin(t: IcebergType, next: int)
    ensures forall i | 0 <= i < |Slots(t)| && Slots(t)[i].None? ::
              next <= Fill(Slots(t), next)[i] < next + Increment(t)
  {
    IncrementCountsAutoSlots(t);
    CounterIdsIncrease(Slots(t), next);
  }

  /** A list element's id is the counter value after its own subtree, so it
      is larger than every counter id assigned inside that subtree. */
  lemma {:induction false} ListElementIdFollowsSubtree(e: IcebergType, required: bool, next: int)
    ensures var element := Translate(List(e, required), next).0.element;
            && element.id == Translate(e, next).1
            && element.fieldType == Translate(e, next).0
            && Ids(element.fieldType) == Fill(Slots(e), next)
            && forall i | 0 <= i < |Slots(e)| && Slots(e)[i].None? :: Ids(element.fieldType)[i] < element.id
  {
    TranslateListStep(e, required, next);
    TranslateFillsSlots(e, next);
    CounterIdsWithin(e, next);
  }

  /** A map's key id is the counter value after the key subtree, so it is
      larger than every counter id assigned inside that subtree. */
  lemma {:induction false} MapKeyIdFollowsSubtree(k: IcebergType, v: IcebergType, valueRequired: bool, next: int)
    ensures var key := Translate(Map(k, v, valueRequired), next).0.key;
            && key.id == Translate(k, next).1
            && Ids(key.fieldType) == Fill(Slots(k), next)
            && forall i | 0 <= i < |Slots(k)| && Slots(k)[i].None? :: Ids(key.fieldType)[i] < key.id
  {
    TranslateMapStep(k, v, valueRequired, next);
    TranslateFillsSlots(k, next);
    CounterIdsWithin(k, next);
  }

  /** The value subtree of a map is translated after the key id is taken:
      its counter ids all lie strictly between the key id and the value id. */
  lemma {:induction false} MapValueIdFollowsSubtree(k: IcebergType, v: IcebergType, valueRequired: bool, next: int)
    ensures var m := Translate(Map(k, v, valueRequired), next).0;
            && m.key.id < m.value.id
            && m.value.id == Translate(v, m.key.id + 1).1
            && Ids(m.value.fieldType) == Fill(Slots(v), m.key.id + 1)
            && forall i | 0 <= i < |Slots(v)| && Slots(v)[i].None? ::
                 m.key.id < Ids(m.value.fieldType)[i] < m.value.id
  {
    var keyId := next + Increment(k);
    TranslateMapStep(k, v, valueRequired, next);
    TranslateFillsSlots(v, keyId + 1);
    CounterIdsWithin(v, keyId + 1);
  }

  /*** The create-table loop ***/

  /** The field loop of `rest_catalog_create_table`, over the fields from
      position `offset` on: every top-level field keeps its name and
      required flag and takes its explicit id, or its position plus one,
      never a counter id; its type is translated with the counter shared by
      the whole call. */
  function TranslateFields(fields: seq<LegacyField>, offset: nat, next: int): (r: (seq<NestedField>, int))
    ensures |r.0| == |fields|
    ensures forall i | 0 <= i < |fields| ::
              && r.0[i].id == fields[i].fieldId.GetOr(offset + i + 1)
              && r.0[i].name == fields[i].name
              && r.0[i].required == fields[i].required
    ensures TypesTranslated(fields, next, r.0)
    decreases |fields|
  {
    if |fields| == 0 then ([], next)
    else
      var f := fields[0];
      var translated := Translate(f.fieldType, next);
      var rest := TranslateFields(fields[1..], offset + 1, translated.1);
      var head := NestedField(f.fieldId.GetOr(offset + 1), f.name, f.required, translated.0);
      FieldTypesCons(fields, next, translated.1, head, rest.0);
      ([head] + rest.0, rest.1)
  }

  /** The schema fields of one create-table call: the counter starts at
      1000 for the first field. */
  function BuildSchemaFields(fields: seq<LegacyField>): (r: seq<NestedField>)
    ensures |r| == |fields|
    ensures forall i | 0 <= i < |fields| ::
              && r[i].id == TopLevelId(fields, i)
              && r[i].name == fields[i].name
              && r[i].required == fields[i].required
    ensures TypesTranslated(fields, FirstCounterId, r)
  {
    TranslateFields(fields, 0, FirstCounterId).0
  }

  /** A top-level field's id: its explicit id, else its position plus one. */
  function TopLevelId(fields: seq<LegacyField>, index: int): int
    requires 0 <= index < |fields|
  {
    fields[index].fieldId.GetOr(index + 1)
  }

  function TopLevelIds(fields: seq<LegacyField>): (r: seq<int>)
    ensures |r| == |fields|
    ensures forall i | 0 <= i < |fields| :: r[i] == TopLevelId(fields, i)
  {
    seq(|fields|, i requires 0 <= i < |fields| => TopLevelId(fields, i))
  }

  /** The id slots of a whole field list, field after field. */
  function SchemaSlots(fields: seq<LegacyField>): seq<Option<int>> {
    if |fields| == 0 then []
    else Slots(fields[0].fieldType) + SchemaSlots(fields[1..])
  }

  /** The counter slots before field `i` are those of the first field
      followed by those before field `i - 1` of the rest. */
  lemma {:induction false} SchemaPrefixStep(fields: seq<LegacyField>, i: int)
    requires 1 <= i <= |fields|
    ensures CountAuto(SchemaSlots(fields[..i]))
            == Increment(fields[0].fieldType) + CountAuto(SchemaSlots(fields[1..][..i - 1]))
  {
    var prefix := fields[..i];
    assert prefix[0] == fields[0];
    assert prefix[1..] == fields[1..][..i - 1];
    assert SchemaSlots(prefix) == Slots(fields[0].fieldType) + SchemaSlots(fields[1..][..i - 1]);
    CountAutoAppend(Slots(fields[0].fieldType), SchemaSlots(fields[1..][..i - 1]));
    IncrementCountsAutoSlots(fields[0].fieldType);
  }

  /** Each built field's type is its source field's type translated with
      the counter where the fields before it left it: `next` advanced by
      their id-less slots. */
  predicate TypesTranslated(fields: seq<LegacyField>, next: int, built: seq<NestedField>)
    requires |built| == |fields|
  {
    forall i | 0 <= i < |fields| ::
      built[i].fieldType == Translate(fields[i].fieldType, next + CountAuto(SchemaSlots(fields[..i]))).0
  }

  /** Field types translated at the shared counter stay so when the first
      field, translated at `next`, is put in front of the rest. */
  lemma {:induction false} FieldTypesCons(fields: seq<LegacyField>, next: int, after: int, head: NestedField,
                                          rest: seq<NestedField>)
    requires |fields| > 0 && |rest| == |fields| - 1
    requires head.fieldType == Translate(fields[0].fieldType, next).0
    requires after == next + Increment(fields[0].fieldType)
    requires TypesTranslated(fields[1..], after, rest)
    ensures TypesTranslated(fields, next, [head] + rest)
  {
    forall i | 0 <= i < |fields|
      ensures ([head] + rest)[i].fieldType == Translate(fields[i].fieldType, next + CountAuto(SchemaSlots(fields[..i]))).0
    {
      if i == 0 {
        assert fields[..0] == [];
      } else {
        FieldTypeInRest(fields, next, after, head, rest, i);
      }
    }
  }

  /** One field after the first: its type was translated in the rest at
      the same counter value. */
  lemma {:induction false} FieldTypeInRest(fields: seq<LegacyField>, next: int, after: int, head: NestedField,
                                           rest: seq<NestedField>, i: int)
    requires 1 <= i < |fields| && |rest| == |fields| - 1
    requires after == next + Increment(fields[0].fieldType)
    requires TypesTranslated(fields[1..], after, rest)
    ensures ([head] + rest)[i].fieldType == Translate(fields[i].fieldType, next + CountAuto(SchemaSlots(fields[..i]))).0
  {
    var counter := after + CountAuto(SchemaSlots(fields[1..][..i - 1]));
    assert rest[i - 1].fieldType == Translate(fields[1..][i - 1].fieldType, counter).0;
    SchemaPrefixStep(fields, i);
    assert ([head] + rest)[i] == rest[i - 1];
  }

  lemma {:induction false} TranslateFieldsStep(fields: seq<LegacyField>, offset: nat, next: int)
    requires |fields| > 0
    ensures var translated := Translate(fields[0].fieldType, next);
            NestedIds(TranslateFields(fields, offset, next).0)
            == Ids(translated.0) + NestedIds(TranslateFields(fields[1..], offset + 1, translated.1).0)
  {
    var translated := Translate(fields[0].fieldType, next);
    var rest := TranslateFields(fields[1..], offset + 1, translated.1).0;
    var built := [NestedField(fields[0].fieldId.GetOr(offset + 1), fields[0].name, fields[0].required, translated.0)] + rest;
    assert built[1..] == rest;
  }

  /** The nested ids of the fields built from `next` are the fields' id
      slots filled from `next`, and the counter ends past all of them: one
      counter shared across the top-level fields, in field order. */
  lemma {:induction false} TranslateFieldsFillsSlots(fields: seq<LegacyField>, offset: nat, next: int)
    ensures NestedIds(TranslateFields(fields, offset, next).0) == Fill(SchemaSlots(fields), next)
    ensures TranslateFields(fields, offset, next).1 == next + CountAuto(SchemaSlots(fields))
    decreases |fields|
  {
    if |fields| > 0 {
      var t := fields[0].fieldType;
      var translated := Translate(t, next);
      var after := next + Increment(t);
      var restOut := TranslateFields(fields[1..], offset + 1, after);
      var restSlots := SchemaSlots(fields[1..]);
      assert translated.1 == after;
      assert NestedIds(restOut.0) == Fill(restSlots, after)
          && restOut.1 == after + CountAuto(restSlots) by {
        TranslateFieldsFillsSlots(fields[1..], offset + 1, after);
      }
      assert Fill(SchemaSlots(fields), next) == Fill(Slots(t), next) + Fill(restSlots, after)
          && CountAuto(SchemaSlots(fields)) == Increment(t) + CountAuto(restSlots) by {
        IncrementCountsAutoSlots(t);
        FillAppend(Slots(t), restSlots, next);
        CountAutoAppend(Slots(t), restSlots);
      }
      assert TranslateFields(fields, offset, next).1 == restOut.1;
      calc {
        NestedIds(TranslateFields(fields, offset, next).0);
        { TranslateFieldsStep(fields, offset, next); }
        Ids(translated.0) + NestedIds(restOut.0);
        { TranslateFillsSlots(t, next); }
        Fill(Slots(t), next) + Fill(restSlots, after);
      }
    }
  }

  /** Within one create-table call every counter id is at least 1000 and
      no two counter ids coincide, across all top-level fields. */
  lemma {:induction false} CounterIdsDistinctInCall(fields: seq<LegacyField>)
    ensures var slots := SchemaSlots(fields);
            var ids := NestedIds(BuildSchemaFields(fields));
            && ids == Fill(slots, FirstCounterId)
            && (forall i | 0 <= i < |slots| && slots[i].None? :: ids[i] >= FirstCounterId)
            && (forall i, j | 0 <= i < j < |slots| && slots[i].None? && slots[j].None? :: ids[i] < ids[j])
  {
    TranslateFieldsFillsSlots(fields, 0, FirstCounterId);
    CounterIdsIncrease(SchemaSlots(fields), FirstCounterId);
  }

  /*** Identifier uniqueness within one call ***/

  /** Without explicit ids and with fewer than 1000 top-level fields, every
      id of the schema is distinct: top-level ids are `1..|fields|` and the
      counter ids are `1000, 1001, ...`. */
  lemma {:induction false} SchemaIdsDistinctWithoutExplicitIds(fields: seq<LegacyField>)
    requires |fields| < FirstCounterId
    requires forall i | 0 <= i < |fields| :: fields[i].fieldId.None?
    requires forall j | 0 <= j < |SchemaSlots(fields)| :: SchemaSlots(fields)[j].None?
    ensures NoDuplicates(TopLevelIds(fields) + NestedIds(BuildSchemaFields(fields)))
  {
    var top := TopLevelIds(fields);
    var nested := NestedIds(BuildSchemaFields(fields));
    TranslateFieldsFillsSlots(fields, 0, FirstCounterId);
    FillAllAuto(SchemaSlots(fields), FirstCounterId);
    var all := top + nested;
    forall i, j | 0 <= i < j < |all|
      ensures all[i] != all[j]
    {
      if j < |top| {
        assert all[i] == i + 1 && all[j] == j + 1;
      } else if i < |top| {
        assert all[i] == i + 1 < FirstCounterId;
        assert all[j] == nested[j - |top|] >= FirstCounterId;
      } else {
        assert all[i] == nested[i - |top|] && all[j] == nested[j - |top|];
      }
    }
  }

  /** An explicit id is used verbatim and the counter is not seeded above
      it, so an explicit member id of 1000 collides with the first counter
      id: here a list element and its enclosing struct member both get 1000. */
  lemma {:induction false} ExplicitIdCanCollideWithCounter()
    ensures var member := LegacyField("m", List(Scalar(ScalarType.Int), true), true, Some(1000));
            var fields := [LegacyField("s", Struct([member]), true, None)];
            NestedIds(BuildSchemaFields(fields)) == [1000, 1000]
  {
    var member := LegacyField("m", List(Scalar(ScalarType.Int), true), true, Some(1000));
    var fields := [LegacyField("s", Struct([member]), true, None)];
    assert MemberSlots([member][1..]) == [];
    assert MemberSlots([member]) == [None, Some(1000)];
    assert SchemaSlots(fields[1..]) == [];
    assert SchemaSlots(fields) == [None, Some(1000)];
    TranslateFieldsFillsSlots(fields, 0, FirstCounterId);
  }

  /** Without explicit nested ids, the counter hands out the nested ids of
      a whole schema as the consecutive run `1000, 1001, ...`, in post-order. */
  lemma {:induction false} CounterIdsConsecutive(fields: seq<LegacyField>)
    requires forall j | 0 <= j < |SchemaSlots(fields)| :: SchemaSlots(fields)[j].None?
    ensures |NestedIds(BuildSchemaFields(fields))| == |SchemaSlots(fields)|
    ensures forall i | 0 <= i < |NestedIds(BuildSchemaFields(fields))| ::
              NestedIds(BuildSchemaFields(fields))[i] == FirstCounterId + i
  {
    TranslateFieldsFillsSlots(fields, 0, FirstCounterId);
    FillAllAuto(SchemaSlots(fields), FirstCounterId);
  }
}

=== FILE: field_types.dfy ===
/** The field descriptors the live catalog code accepts from the host
    (native/ex_iceberg/src/types.rs): a field is a name, a type and a
    required flag, with no explicit id. */
module FieldTypes {
  import opened Base

  /** The fifteen variants of `IcebergFieldType`. Unlike the legacy enum
      there is no Time, Timestamptz, TimestampNs or TimestamptzNs, and the
      Fixed length is a `u32`. */
  datatype IcebergFieldType =
    | Boolean | Int | Long | Float | Double | String | Uuid | Date | Timestamp | Binary
    | Decimal(precision: u32, scale: u32)
    | Fixed(length: u32)
    | List(elementType: IcebergFieldType, elementRequired: bool)
    | Map(keyType: IcebergFieldType, valueType: IcebergFieldType, valueRequired: bool)
    | Struct(fields: seq<IcebergField>)

  datatype IcebergField = IcebergField(name: string, fieldType: IcebergFieldType, required: bool)

  /** List, Map and Struct are the variants that contain further types. */
  predicate IsContainer(t: IcebergFieldType) {
    t.List? || t.Map? || t.Struct?
  }
}

=== FILE: generation_agreement.dfy ===
/** The live catalog calls (native/ex_iceberg/src/catalog.rs) against the
    legacy ones (native/ex_iceberg/src/lib_old.rs). The live calls take
    namespaces as lists of parts; the legacy calls take a dotted string and
    split it. For a namespace with at least one part and no dotted part,
    both generations send the same identifier and, given catalogs that
    answer alike, give the same answer in their own reply shapes. A dotted
    part is where they part ways. */
module GenerationAgreement {
  import opened Base
  import opened Namespaces
  import opened Connection
  import opened Messages
  import opened CatalogOps
  import opened LegacyCatalog
  import FieldTypes
  import LegacyTypes
  import StrideTranslator
  import CounterTranslator

  /** The dotted string of a namespace with a part and no dotted part
      parses back to the very identifier the live conversion makes. */
  lemma SameIdentifierSent(parts: seq<string>, name: string)
    requires |parts| > 0 && SeparatorFree(parts)
    ensures ParseNamespace(Join(parts)) == NamespaceIdent(parts)
    ensures ToNamespace(HostNamespace(parts)) == Returned(NamespaceIdent(parts))
    ensures LegacyTableIdent(Join(parts), name) == ToTableIdent(HostTableIdent(HostNamespace(parts), name)).value
  {
    ParseJoinedNamespace(parts);
  }

  /** Listing: given the same listing, both answer with the same atom and
      the same number of entries; each legacy entry is the live entry's
      parts joined with `.`, and a failure carries the same message. */
  lemma ListNamespacesAgree(h: CatalogHandle, remote: Remote, legacy: LegacyRemote)
    requires remote.listNamespaces(ConnectionProps(h)) == legacy.listNamespaces(BuildConfig(h))
    ensures var live := ListNamespaces(h, remote);
            var dotted := LegacyListNamespaces(h, legacy);
            && live.0 == dotted.0 && |live.1| == |dotted.1|
            && (live.0 == OkAtom ==> forall i | 0 <= i < |live.1| :: dotted.1[i] == Join(live.1[i].parts))
            && (live.0 == ErrorAtom ==> dotted.1 == live.1[0].parts)
  {
  }

  /** Creating a namespace: when the catalogs succeed and fail together
      with the same message, and a successful live catalog echoes the
      namespace it was sent, the live echo joined with `.` is the string the
      legacy call echoes, and a failure carries the same message. */
  lemma CreateNamespaceAgree(h: CatalogHandle, remote: Remote, legacy: LegacyRemote, parts: seq<string>, properties: Props)
    requires |parts| > 0 && SeparatorFree(parts)
    requires var created := remote.createNamespace(ConnectionProps(h), NamespaceIdent(parts), properties);
             var legacyCreated := legacy.createNamespace(BuildConfig(h), NamespaceIdent(parts), properties);
             && (created.Ok? <==> legacyCreated.Ok?)
             && (created.Ok? ==> created.value == NamespaceIdent(parts))
             && (created.Err? ==> created.error == legacyCreated.error)
    ensures var live := CreateNamespace(h, remote, HostNamespace(parts), properties);
            var dotted := LegacyCreateNamespace(h, legacy, Join(parts), properties);
            && live.Returned? && live.value.0 == dotted.0
            && (dotted.0 == OkAtom ==> dotted.1 == map[NamespaceKey := [Join(live.value.1.parts)]])
            && (dotted.0 == ErrorAtom ==> dotted.1 == map[ErrorKey := live.value.1.parts])
  {
    SameIdentifierSent(parts, "");
  }

  /** Existence check: given the same answer, the two replies are equal. */
  lemma TableExistsAgree(h: CatalogHandle, remote: Remote, legacy: LegacyRemote, ident: HostTableIdent)
    requires |ident.namespace.parts| > 0 && SeparatorFree(ident.namespace.parts)
    requires var sent := TableIdent(NamespaceIdent(ident.namespace.parts), ident.name);
             remote.tableExists(ConnectionProps(h), sent) == legacy.tableExists(BuildConfig(h), sent)
    ensures TableExists(h, remote, ident)
            == Returned(LegacyTableExists(h, legacy, Join(ident.namespace.parts), ident.name))
  {
    SameIdentifierSent(ident.namespace.parts, ident.name);
  }

  /** Dropping: given the same outcome, both answer with the same atom; the
      legacy "table" entry is the dotted full name of the identifier the
      live call echoes, and a failure carries the same message. */
  lemma DropTableAgree(h: CatalogHandle, remote: Remote, legacy: LegacyRemote, ident: HostTableIdent)
    requires |ident.namespace.parts| > 0 && SeparatorFree(ident.namespace.parts)
    requires var sent := TableIdent(NamespaceIdent(ident.namespace.parts), ident.name);
             remote.dropTable(ConnectionProps(h), sent) == legacy.dropTable(BuildConfig(h), sent)
    ensures var live := DropTable(h, remote, ident);
            var dotted := LegacyDropTable(h, legacy, Join(ident.namespace.parts), ident.name);
            && live.Returned? && live.value.0 == dotted.0
            && (dotted.0 == OkAtom ==> dotted.1 == map[TableKey := FullName(live.value.1)])
            && (dotted.0 == ErrorAtom ==> dotted.1 == map[ErrorKey := live.value.1.namespace.parts[0]])
  {
    SameIdentifierSent(ident.namespace.parts, ident.name);
  }

  /** Creating a table: the two generations translate the fields
      differently, but when both schemas are accepted and the catalogs give
      the same outcome, neither call panics; the live call answers a handle
      exactly when the legacy one answers `ok`, the legacy "table" entry is
      the handle's namespace and name joined by `.`, and a failure carries
      the same message. */
  lemma CreateTableAgree(h: CatalogHandle, remote: Remote, legacy: LegacyRemote, ident: HostTableIdent,
                         fields: seq<FieldTypes.IcebergField>, legacyFields: seq<LegacyTypes.LegacyField>, properties: Props)
    requires |ident.namespace.parts| > 0 && SeparatorFree(ident.namespace.parts)
    requires remote.acceptsSchema(StrideTranslator.StrideSchema(fields))
    requires legacy.acceptsSchema(LegacySchemaId, CounterTranslator.BuildSchemaFields(legacyFields))
    requires remote.createTable(ConnectionProps(h), NamespaceIdent(ident.namespace.parts),
                                TableCreation(ident.name, StrideTranslator.StrideSchema(fields), properties))
             == legacy.createTable(BuildConfig(h), NamespaceIdent(ident.namespace.parts),
                                   LegacyTableCreation(ident.name, LegacySchemaId, CounterTranslator.BuildSchemaFields(legacyFields), properties))
    ensures var live := CreateTable(h, remote, ident, fields, properties);
            var dotted := LegacyCreateTable(h, legacy, Join(ident.namespace.parts), ident.name, legacyFields, properties);
            && live.Returned? && dotted.Returned?
            && (live.value.TableOk? <==> dotted.value.0 == OkAtom)
            && (live.value.TableOk? ==>
                  dotted.value.1 == map[TableKey := Dotted(live.value.handle.namespace, live.value.handle.tableName)])
            && (live.value.TableError? ==> dotted.value.1 == map[ErrorKey := live.value.message])
  {
    SameIdentifierSent(ident.namespace.parts, ident.name);
  }

  /** Where the generations differ: a namespace whose one part is "a.b".
      The live call sends it whole, as one part; its dotted string is "a.b",
      which the legacy call splits into the two parts "a" and "b". */
  lemma DottedPartIsSplitByLegacy(h: CatalogHandle, remote: Remote, legacy: LegacyRemote, properties: Props)
    ensures Join(["a.b"]) == "a.b"
    ensures ParseNamespace("a.b") == NamespaceIdent(["a", "b"]) != NamespaceIdent(["a.b"])
    ensures var live := CreateNamespace(h, remote, HostNamespace(["a.b"]), properties);
            && live.Returned?
            && (live.value.0 == OkAtom
                <==> remote.createNamespace(ConnectionProps(h), NamespaceIdent(["a.b"]), properties).Ok?)
    ensures LegacyCreateNamespace(h, legacy, "a.b", properties).0 == OkAtom
            <==> legacy.createNamespace(BuildConfig(h), NamespaceIdent(["a", "b"]), properties).Ok?
  {
    assert Join(["a", "b"]) == "a.b" by {
      JoinCons("a", ["b"]);
      assert ["a", "b"] == ["a"] + ["b"];
    }
    assert SeparatorFree(["a", "b"]);
    ParseJoinedNamespace(["a", "b"]);
  }
}

=== FILE: legacy_catalog.dfy ===
/** The catalog calls of the legacy native module
    (native/ex_iceberg/src/lib_old.rs). Namespaces travel as dotted strings:
    they are split on `.` on the way in and joined on the way out. The
    client is built from the four-way configuration, and new tables get
    their ids from the counter-based translator. */
module LegacyCatalog {
  import opened Base
  import opened SpecTypes
  import opened LegacyTypes
  import opened Namespaces
  import opened Connection
  import opened CounterTranslator
  import opened TableHandle
  import opened Messages

  /** The schema id the legacy create call requests. */
  const LegacySchemaId: int := 1

  /** What the legacy `create_table` sends. */
  datatype LegacyTableCreation = LegacyTableCreation(name: string, schemaId: int, schema: seq<NestedField>, properties: Props)

  /** The catalog service behind a legacy client, built from the
      configuration; each error is the rendered message. `acceptsSchema`
      is the library's schema validation (its code is not part of this
      model); a rejected schema panics at its `unwrap`. */
  datatype LegacyRemote = LegacyRemote(
    listNamespaces: RestCatalogConfig -> Result<seq<NamespaceIdent>>,
    createNamespace: (RestCatalogConfig, NamespaceIdent, Props) -> Result<()>,
    tableExists: (RestCatalogConfig, TableIdent) -> Result<bool>,
    dropTable: (RestCatalogConfig, TableIdent) -> Result<()>,
    createTable: (RestCatalogConfig, NamespaceIdent, LegacyTableCreation) -> Result<()>,
    loadTable: (RestCatalogConfig, TableIdent) -> Result<LoadedTable>,
    acceptsSchema: (int, seq<NestedField>) -> bool)

  const TableKey: string := "table"
  const NamespaceKey: string := "namespace"

  /** `namespace.table` as the legacy replies write it. */
  function Dotted(namespace: string, tableName: string): string {
    namespace + [Separator] + tableName
  }

  /** The identifier of a table given as a dotted namespace and a name. */
  function LegacyTableIdent(namespace: string, tableName: string): (r: TableIdent)
    ensures Join(r.namespace.parts) == namespace && r.name == tableName
    ensures |r.namespace.parts| > 0
  {
    TableIdent(ParseNamespace(namespace), tableName)
  }

  /** Legacy `rest_catalog_list_namespaces`: every namespace joined into a
      dotted string, or the one prefixed error message. */
  function LegacyListNamespaces(h: CatalogHandle, remote: LegacyRemote): (r: (Atom, seq<string>))
    ensures var listed := remote.listNamespaces(BuildConfig(h));
            listed.Ok? ==>
              && r.0 == OkAtom && |r.1| == |listed.value|
              && forall i | 0 <= i < |r.1| :: r.1[i] == Join(listed.value[i].parts)
    ensures var listed := remote.listNamespaces(BuildConfig(h));
            listed.Err? ==> r == (ErrorAtom, [ListNamespacesPrefix + listed.error])
  {
    match remote.listNamespaces(BuildConfig(h))
    case Ok(namespaces) => (OkAtom, seq(|namespaces|, i requires 0 <= i < |namespaces| => Join(namespaces[i].parts)))
    case Err(e) => (ErrorAtom, [ListNamespacesPrefix + e])
  }

  /** A listed name, passed back to a legacy call, names the same namespace
      exactly when the namespace has no dotted part. */
  lemma ListedNameRoundTrip(ns: NamespaceIdent)
    ensures ParseNamespace(Join(ns.parts)) == ns <==> |ns.parts| > 0 && SeparatorFree(ns.parts)
  {
    ParseJoinedNamespace(ns.parts);
  }

  /** Legacy `rest_catalog_create_namespace`: the dotted string is split
      into the namespace (this never panics: a split always has a piece);
      success echoes the string given under "namespace". */
  function LegacyCreateNamespace(h: CatalogHandle, remote: LegacyRemote, namespace: string, properties: Props): (r: (Atom, map<string, seq<string>>))
    ensures var created := remote.createNamespace(BuildConfig(h), ParseNamespace(namespace), properties);
            && (created.Ok? ==> r == (OkAtom, map[NamespaceKey := [namespace]]))
            && (created.Err? ==> r == (ErrorAtom, map[ErrorKey := [CreateNamespacePrefix + created.error]]))
  {
    match remote.createNamespace(BuildConfig(h), ParseNamespace(namespace), properties)
    case Ok(_) => (OkAtom, map[NamespaceKey := [namespace]])
    case Err(e) => (ErrorAtom, map[ErrorKey := [CreateNamespacePrefix + e]])
  }

  /** Legacy `rest_catalog_table_exists`: errors become `false`. */
  function LegacyTableExists(h: CatalogHandle, remote: LegacyRemote, namespace: string, tableName: string): (r: (Atom, bool))
    ensures var answer := remote.tableExists(BuildConfig(h), LegacyTableIdent(namespace, tableName));
            && (answer.Ok? ==> r == (OkAtom, answer.value))
            && (answer.Err? ==> r == (ErrorAtom, false))
  {
    match remote.tableExists(BuildConfig(h), LegacyTableIdent(namespace, tableName))
    case Ok(found) => (OkAtom, found)
    case Err(_) => (ErrorAtom, false)
  }

  /** Legacy `rest_catalog_drop_table`: success maps "table" to the dotted
      full name. */
  function LegacyDropTable(h: CatalogHandle, remote: LegacyRemote, namespace: string, tableName: string): (r: (Atom, Props))
    ensures var dropped := remote.dropTable(BuildConfig(h), LegacyTableIdent(namespace, tableName));
            && (dropped.Ok? ==> r == (OkAtom, map[TableKey := Dotted(namespace, tableName)]))
            && (dropped.Err? ==> r == (ErrorAtom, map[ErrorKey := DropTablePrefix + dropped.error]))
  {
    match remote.dropTable(BuildConfig(h), LegacyTableIdent(namespace, tableName))
    case Ok(_) => (OkAtom, map[TableKey := Dotted(namespace, tableName)])
    case Err(e) => (ErrorAtom, map[ErrorKey := DropTablePrefix + e])
  }

  /** Legacy `rest_catalog_create_table`: the fields are translated with the
      counter starting at 1000 and the schema is built with schema id 1 (a
      rejected schema panics); success maps "table" to the dotted full
      name. */
  function LegacyCreateTable(h: CatalogHandle, remote: LegacyRemote, namespace: string, tableName: string,
                             fields: seq<LegacyField>, properties: Props): (r: Outcome<(Atom, Props)>)
    ensures r.Panicked? <==> !remote.acceptsSchema(LegacySchemaId, BuildSchemaFields(fields))
    ensures r.Returned? ==>
              var created := remote.createTable(BuildConfig(h), ParseNamespace(namespace),
                                                LegacyTableCreation(tableName, LegacySchemaId, BuildSchemaFields(fields), properties));
              && (created.Ok? ==> r.value == (OkAtom, map[TableKey := Dotted(namespace, tableName)]))
              && (created.Err? ==> r.value == (ErrorAtom, map[ErrorKey := CreateTablePrefix + created.error]))
  {
    var schema := BuildSchemaFields(fields);
    if !remote.acceptsSchema(LegacySchemaId, schema) then Panicked(SchemaUnwrap)
    else
      match remote.createTable(BuildConfig(h), ParseNamespace(namespace), LegacyTableCreation(tableName, LegacySchemaId, schema, properties))
      case Ok(_) => Returned((OkAtom, map[TableKey := Dotted(namespace, tableName)]))
      case Err(e) => Returned((ErrorAtom, map[ErrorKey := CreateTablePrefix + e]))
  }

  /** Legacy `rest_catalog_load_table`: the six-key metadata map of the
      loaded table, or the prefixed error. */
  function LegacyLoadTable(h: CatalogHandle, remote: LegacyRemote, namespace: string, tableName: string): (r: (Atom, Props))
    ensures var loaded := remote.loadTable(BuildConfig(h), LegacyTableIdent(namespace, tableName));
            && (loaded.Ok? ==> r.0 == OkAtom && r.1.Keys == MetadataKeys)
            && (loaded.Err? ==> r == (ErrorAtom, map[ErrorKey := LoadTablePrefix + loaded.error]))
  {
    match remote.loadTable(BuildConfig(h), LegacyTableIdent(namespace, tableName))
    case Ok(table) => (OkAtom, MetadataMap(table))
    case Err(e) => (ErrorAtom, map[ErrorKey := LoadTablePrefix + e])
  }

  /** The legacy load answer is the same map a fresh table handle for the
      same table answers its first metadata call with, when both loads see
      the same table. */
  lemma LegacyLoadMatchesHandleMetadata(h: CatalogHandle, remote: LegacyRemote, namespace: string, tableName: string, load: Loader)
    requires remote.loadTable(BuildConfig(h), LegacyTableIdent(namespace, tableName)).Ok?
    requires var t := NewSmartTable(h.uri, h.warehouse, h.props, namespace, tableName);
             load(ConnectionProps(HandleConnection(t)), BuildTableIdent(t))
             == remote.loadTable(BuildConfig(h), LegacyTableIdent(namespace, tableName))
    ensures var step := TableMetadata(NewSmartTable(h.uri, h.warehouse, h.props, namespace, tableName), load);
            LegacyLoadTable(h, remote, namespace, tableName) == (step.atom, step.reply)
  {
  }
}

=== FILE: legacy_types.dfy ===
/** The field descriptors of the legacy catalog code
    (native/ex_iceberg/src/lib_old.rs): nineteen type variants, and fields
    that may carry an explicit id. */
module LegacyTypes {
  import opened Base

  /** The sixteen non-container variants of `IcebergType`: fourteen plain
      primitives, Decimal and Fixed (with a `u64` length here). */
  datatype ScalarType =
    | Boolean | Int | Long | Float | Double | String | Uuid | Date | Time
    | Timestamp | Timestamptz | TimestampNs | TimestamptzNs | Binary
    | Decimal(precision: u32, scale: u32)
    | Fixed(length: u64)

  /** `IcebergType`: the sixteen scalar variants, grouped under `Scalar`
      because no operation tells them apart except the primitive mapping,
      and the three containers. */
  datatype IcebergType =
    | Scalar(kind: ScalarType)
    | List(elementType: IcebergType, elementRequired: bool)
    | Map(keyType: IcebergType, valueType: IcebergType, valueRequired: bool)
    | Struct(fields: seq<LegacyField>)

  /** `IcebergField` of the legacy code; `fieldId` is the optional explicit
      id (an `i32` in the source). */
  datatype LegacyField = LegacyField(name: string, fieldType: IcebergType, required: bool, fieldId: Option<int>)

  predicate IsContainer(t: IcebergType) {
    t.List? || t.Map? || t.Struct?
  }
}

=== FILE: messages.dfy ===
/** The fixed texts of the host replies, shared by the live catalog calls,
    the legacy ones and the table handle: the key an error message is
    stored under, the prefix each failing call puts before the library's
    error, and the panic message of a rejected schema. */
module Messages {
  const ErrorKey: string := "error"

  const ListNamespacesPrefix: string := "Failed to list namespaces: "
  const CreateNamespacePrefix: string := "Failed to create namespace: "
  const DropTablePrefix: string := "Failed to drop table: "
  const CreateTablePrefix: string := "Failed to create table: "
  const LoadTablePrefix: string := "Failed to load table: "
  const RenameTablePrefix: string := "Failed to rename table: "

  /** The panic message when the schema builder refuses the schema. */
  const SchemaUnwrap: string := "schema build failed"
}

=== FILE: namespaces.dfy ===
/** Namespaces and table identifiers: the dotted-string encoding of
    namespaces (`parts.join(".")` and `split('.')`), the catalog library's
    identifiers, the host-side mirrors of them, and the `From` conversions
    between the two (native/ex_iceberg/src/catalog.rs). */
module Namespaces {
  import opened Base

  /** The namespace separator of the dotted encoding. */
  const Separator: char := '.'

  /*** The dotted encoding ***/

  /** `parts.join(".")`: the parts with one separator between neighbours. */
  function Join(parts: seq<string>): string {
    if |parts| == 0 then ""
    else if |parts| == 1 then parts[0]
    else parts[0] + [Separator] + Join(parts[1..])
  }

  /** `s.split('.').collect()`: the maximal separator-free pieces of `s`,
      in order. Like the Rust iterator it always yields at least one piece:
      the empty string splits into one empty piece, and a separator at either
      end or two in a row yield empty pieces. */
  function Split(s: string): (r: seq<string>)
    ensures |r| >= 1
    ensures forall i | 0 <= i < |r| :: Separator !in r[i]
  {
    if |s| == 0 then [""]
    else
      var rest := Split(s[1..]);
      if s[0] == Separator then [""] + rest
      else [[s[0]] + rest[0]] + rest[1..]
  }

  /** No part contains the separator. */
  predicate SeparatorFree(parts: seq<string>) {
    forall i | 0 <= i < |parts| :: Separator !in parts[i]
  }

  lemma JoinCons(head: string, tail: seq<string>)
    requires |tail| > 0
    ensures Join([head] + tail) == head + [Separator] + Join(tail)
  {
    assert ([head] + tail)[1..] == tail;
  }

  /** Joining what a split produced gives back the string, whatever it
      holds: the split loses nothing. */
  lemma {:induction false} JoinSplit(s: string)
    ensures Join(Split(s)) == s
    decreases |s|
  {
    if |s| > 0 {
      var rest := Split(s[1..]);
      JoinSplit(s[1..]);
      if s[0] == Separator {
        JoinCons("", rest);
        assert s == [s[0]] + s[1..];
      } else if |rest| == 1 {
        assert s == [s[0]] + s[1..];
      } else {
        JoinCons([s[0]] + rest[0], rest[1..]);
        JoinCons(rest[0], rest[1..]);
        assert rest == [rest[0]] + rest[1..];
        assert s == [s[0]] + s[1..];
      }
    }
  }

  /** Splitting a separator-free prefix followed by anything: the prefix
      is glued onto the first piece of the rest. */
  lemma {:induction false} SplitPrefix(p: string, t: string)
    requires Separator !in p
    ensures Split(p + t) == [p + Split(t)[0]] + Split(t)[1..]
    decreases |p|
  {
    if |p| > 0 {
      var pieces := Split(t);
      var rest := Split(p[1..] + t);
      assert (p + t)[1..] == p[1..] + t;
      assert (p + t)[0] == p[0] != Separator by {
        assert p[0] in p;
      }
      assert Split(p + t) == [[p[0]] + rest[0]] + rest[1..];
      SplitPrefix(p[1..], t);
      assert [p[0]] + rest[0] == [p[0]] + (p[1..] + pieces[0]) == p + pieces[0];
    } else {
      assert p + t == t;
      assert p + Split(t)[0] == Split(t)[0];
      assert Split(t) == [Split(t)[0]] + Split(t)[1..];
    }
  }

  /** Splitting a join gives back the parts exactly when there is at least
      one part and no part contains the separator; otherwise the split
      yields other pieces (an empty list joins to "" which splits to [""],
      and a dotted part falls apart). */
  lemma {:induction false} SplitJoin(parts: seq<string>)
    ensures Split(Join(parts)) == parts <==> |parts| > 0 && SeparatorFree(parts)
    decreases |parts|
  {
    if |parts| > 0 && SeparatorFree(parts) {
      if |parts| == 1 {
        SplitPrefix(parts[0], "");
        assert parts[0] + "" == parts[0];
      } else {
        var tail := parts[1..];
        assert SeparatorFree(tail) by {
          forall i | 0 <= i < |tail| ensures Separator !in tail[i] {
            assert tail[i] == parts[i + 1];
          }
        }
        SplitJoin(tail);
        var dotted := [Separator] + Join(tail);
        assert Join(parts) == parts[0] + dotted;
        assert dotted[1..] == Join(tail);
        assert Split(dotted) == [""] + tail;
        SplitPrefix(parts[0], dotted);
        assert parts[0] + "" == parts[0];
        assert parts == [parts[0]] + tail;
      }
    }
  }

  /*** Identifiers ***/

  /** The catalog library's `NamespaceIdent`: a non-empty list of parts
      (its constructor `from_vec` refuses an empty list). */
  datatype NamespaceIdent = NamespaceIdent(parts: seq<string>)

  /** The catalog library's `TableIdent`: a namespace and a table name. */
  datatype TableIdent = TableIdent(namespace: NamespaceIdent, name: string)

  /** The host's mirror of a namespace identifier (`ElixirNamespaceIdent`). */
  datatype HostNamespace = HostNamespace(parts: seq<string>)

  /** The host's mirror of a table identifier (`ElixirTableIdent`). */
  datatype HostTableIdent = HostTableIdent(namespace: HostNamespace, name: string)

  /** The `expect` argument of a namespace conversion that `from_vec`
      refuses. The actual panic message continues with ": " and the Debug
      rendering of the library's error, which is not modelled. */
  const InvalidNamespace: string := "Invalid namespace"

  /** `NamespaceIdent::from_vec`: a namespace of the given parts, refused
      (None) when there are none. The library's code is not part of this
      model; that it refuses exactly the empty list is the assumption made
      here. */
  function FromVec(parts: seq<string>): (r: Option<NamespaceIdent>)
    ensures r.Some? <==> |parts| > 0
    ensures r.Some? ==> r.value.parts == parts
  {
    if |parts| == 0 then None else Some(NamespaceIdent(parts))
  }

  /** `From<ElixirNamespaceIdent> for NamespaceIdent`: the same parts, or a
      panic (`expect("Invalid namespace")`) when `from_vec` refuses them. */
  function ToNamespace(ns: HostNamespace): (r: Outcome<NamespaceIdent>)
    ensures r.Panicked? <==> |ns.parts| == 0
    ensures r.Panicked? ==> r.message == InvalidNamespace
    ensures r.Returned? ==> r.value.parts == ns.parts
  {
    match FromVec(ns.parts)
    case Some(ident) => Returned(ident)
    case None => Panicked(InvalidNamespace)
  }

  /** `From<NamespaceIdent> for ElixirNamespaceIdent`: `ns.inner()`. */
  function FromNamespace(ns: NamespaceIdent): (r: HostNamespace)
    ensures r.parts == ns.parts
  {
    HostNamespace(ns.parts)
  }

  /** `From<ElixirTableIdent> for TableIdent`: the converted namespace and
      the same name; panics exactly when the namespace conversion does. */
  function ToTableIdent(t: HostTableIdent): (r: Outcome<TableIdent>)
    ensures r.Panicked? <==> |t.namespace.parts| == 0
    ensures r.Returned? ==> r.value.namespace.parts == t.namespace.parts && r.value.name == t.name
  {
    match ToNamespace(t.namespace)
    case Returned(ns) => Returned(TableIdent(ns, t.name))
    case Panicked(m) => Panicked(m)
  }

  /** `From<TableIdent> for ElixirTableIdent`. */
  function FromTableIdent(t: TableIdent): (r: HostTableIdent)
    ensures r.namespace.parts == t.namespace.parts && r.name == t.name
  {
    HostTableIdent(FromNamespace(t.namespace), t.name)
  }

  /** The conversions are inverse to each other: a host namespace that
      converts comes back unchanged, and a library namespace (which always
      has a part) survives the trip to the host and back. */
  lemma NamespaceRoundTrip(host: HostNamespace, ns: NamespaceIdent)
    ensures ToNamespace(host).Returned? ==> FromNamespace(ToNamespace(host).value) == host
    ensures |ns.parts| > 0 ==> ToNamespace(FromNamespace(ns)) == Returned(ns)
  {
  }

  /** The same two round trips for table identifiers. */
  lemma TableIdentRoundTrip(host: HostTableIdent, t: TableIdent)
    ensures ToTableIdent(host).Returned? ==> FromTableIdent(ToTableIdent(host).value) == host
    ensures |t.namespace.parts| > 0 ==> ToTableIdent(FromTableIdent(t)) == Returned(t)
  {
  }

  /** A dotted namespace string as an identifier: `split('.')` followed by
      `from_vec(..).unwrap()` (native/ex_iceberg/src/table.rs and the
      legacy handlers). The unwrap never fails, because a split always
      yields at least one piece. */
  function ParseNamespace(s: string): (r: NamespaceIdent)
    ensures r.parts == Split(s)
    ensures Join(r.parts) == s
  {
    JoinSplit(s);
    FromVec(Split(s)).value
  }

  /** Encoding the parts as a dotted string and parsing it back recovers
      the namespace exactly when it has a part and no part is dotted. */
  lemma ParseJoinedNamespace(parts: seq<string>)
    ensures ParseNamespace(Join(parts)).parts == parts <==> |parts| > 0 && SeparatorFree(parts)
  {
    SplitJoin(parts);
  }
}

=== FILE: spec_types.dfy ===
/** The catalog library's own schema representation, which both translators
    produce: primitive kinds, and list, map and struct types whose children
    are nested fields carrying integer field ids. */
module SpecTypes {
  import opened Base

  /** The catalog's primitive kinds. */
  datatype PrimitiveType =
    | Boolean | Int | Long | Float | Double | String | Uuid | Date | Time
    | Timestamp | Timestamptz | TimestampNs | TimestamptzNs | Binary
    | Decimal(precision: u32, scale: u32)
    | Fixed(length: u64)

  /** A (possibly nested) type of the catalog's schema tree. */
  datatype SpecType =
    | Primitive(prim: PrimitiveType)
    | ListOf(element: NestedField)
    | MapOf(key: NestedField, value: NestedField)
    | StructOf(fields: seq<NestedField>)

  /** A named field of the schema tree with its field id. */
  datatype NestedField = NestedField(id: int, name: string, required: bool, fieldType: SpecType)

  /** The ids of every nested field below a type, in post-order: the ids
      inside a child's own type come before the child's id. */
  function Ids(t: SpecType): seq<int>
    decreases t, 1
  {
    match t
    case Primitive(_) => []
    case ListOf(e) => Ids(e.fieldType) + [e.id]
    case MapOf(k, v) => Ids(k.fieldType) + [k.id] + Ids(v.fieldType) + [v.id]
    case StructOf(fs) => MemberIds(fs)
  }

  /** The post-order ids of a sequence of sibling fields. */
  function MemberIds(fs: seq<NestedField>): seq<int>
    decreases fs, 0
  {
    if |fs| == 0 then []
    else Ids(fs[0].fieldType) + [fs[0].id] + MemberIds(fs[1..])
  }

  /** The ids below the top level of a schema, field after field. */
  function NestedIds(schema: seq<NestedField>): seq<int> {
    if |schema| == 0 then []
    else Ids(schema[0].fieldType) + NestedIds(schema[1..])
  }

  /** The ids of the top-level fields of a schema, in order. */
  function TopIds(schema: seq<NestedField>): (r: seq<int>)
    ensures |r| == |schema|
    ensures forall i | 0 <= i < |schema| :: r[i] == schema[i].id
  {
    seq(|schema|, i requires 0 <= i < |schema| => schema[i].id)
  }
}

=== FILE: stride_translator.dfy ===
/** The schema translator of the live `rest_catalog_create_table`
    (native/ex_iceberg/src/catalog.rs): field ids come from the field's
    position alone. The top-level field at `index` gets `index + 1`; the
    ids inside it are `index * 1000` plus a small offset. Only one level of
    nesting is kept: every nested type other than String, Long or Int
    becomes String. */
module StrideTranslator {
  import opened Base
  import opened SpecTypes
  import opened FieldTypes

  /** The id block reserved per top-level position. */
  const Stride: int := 1000

  /** The offset of a list element's and a map key's id in the block. */
  const FirstNestedOffset: int := 1

  /** The offset of a map value's id in the block. */
  const ValueOffset: int := 2

  /** The offset of the first struct member's id in the block. */
  const MemberOffset: int := 10

  /** The widest struct whose member ids stay inside its own block. */
  const MaxMembersInBlock: int := Stride - MemberOffset

  /** The primitive kind of a non-container field type. Fixed lengths
      are widened from `u32` to `u64`; Decimal keeps precision and scale. */
  function LivePrimitive(t: IcebergFieldType): (p: PrimitiveType)
    requires !IsContainer(t)
    ensures !(p.Time? || p.Timestamptz? || p.TimestampNs? || p.TimestamptzNs?)
    ensures t.Decimal? <==> p.Decimal?
    ensures t.Decimal? ==> p.precision == t.precision && p.scale == t.scale
    ensures t.Fixed? <==> p.Fixed?
    ensures t.Fixed? ==> p.length as int == t.length as int
  {
    match t
    case Boolean => PrimitiveType.Boolean
    case Int => PrimitiveType.Int
    case Long => PrimitiveType.Long
    case Float => PrimitiveType.Float
    case Double => PrimitiveType.Double
    case String => PrimitiveType.String
    case Uuid => PrimitiveType.Uuid
    case Date => PrimitiveType.Date
    case Timestamp => PrimitiveType.Timestamp
    case Binary => PrimitiveType.Binary
    case Decimal(precision, scale) => PrimitiveType.Decimal(precision, scale)
    case Fixed(length) => PrimitiveType.Fixed(Widen(length))
  }

  /** Distinct non-container field types become distinct primitive kinds. */
  lemma LivePrimitiveIsInjective(a: IcebergFieldType, b: IcebergFieldType)
    requires !IsContainer(a) && !IsContainer(b)
    ensures LivePrimitive(a) == LivePrimitive(b) <==> a == b
  {
  }

  /** The kind a nested element, key, value or member gets: String, Long
      and Int are kept, everything else (containers included) becomes
      String. */
  function NestedFallback(t: IcebergFieldType): (p: PrimitiveType)
    ensures p == PrimitiveType.Int <==> t.Int?
    ensures p == PrimitiveType.Long <==> t.Long?
    ensures p == PrimitiveType.String <==> !t.Int? && !t.Long?
  {
    match t
    case String => PrimitiveType.String
    case Long => PrimitiveType.Long
    case Int => PrimitiveType.Int
    case _ => PrimitiveType.String
  }

  /** The first id of the block of the top-level field at `index`. */
  function BlockStart(index: int): int {
    index * Stride
  }

  /** The translated type of the top-level field at `index`: a scalar
      becomes its own primitive kind, while every element, key, value and
      struct member is cut down to the nested fallback kind. */
  function StrideType(t: IcebergFieldType, index: int): (r: SpecType)
    ensures t.List? <==> r.ListOf?
    ensures t.Map? <==> r.MapOf?
    ensures t.Struct? <==> r.StructOf?
    ensures r.ListOf? ==> r.element.name == "element" && r.element.required == t.elementRequired
    ensures r.MapOf? ==> && r.key.name == "key" && r.key.required
                         && r.value.name == "value" && r.value.required == t.valueRequired
    ensures r.StructOf? ==> |r.fields| == |t.fields|
    ensures r.StructOf? ==> forall j | 0 <= j < |r.fields| ::
              r.fields[j].name == t.fields[j].name && r.fields[j].required == t.fields[j].required
    ensures !IsContainer(t) ==> r == Primitive(LivePrimitive(t))
    ensures r.ListOf? ==> r.element.fieldType == Primitive(NestedFallback(t.elementType))
    ensures r.MapOf? ==> && r.key.fieldType == Primitive(NestedFallback(t.keyType))
                         && r.value.fieldType == Primitive(NestedFallback(t.valueType))
    ensures r.StructOf? ==> forall j | 0 <= j < |r.fields| ::
              r.fields[j].fieldType == Primitive(NestedFallback(t.fields[j].fieldType))
  {
    match t
    case List(elementType, elementRequired) =>
      ListOf(NestedField(BlockStart(index) + FirstNestedOffset, "element", elementRequired,
                         Primitive(NestedFallback(elementType))))
    case Map(keyType, valueType, valueRequired) =>
      MapOf(NestedField(BlockStart(index) + FirstNestedOffset, "key", true, Primitive(NestedFallback(keyType))),
            NestedField(BlockStart(index) + ValueOffset, "value", valueRequired, Primitive(NestedFallback(valueType))))
    case Struct(fs) => StructOf(StrideMembers(fs, index))
    case _ => Primitive(LivePrimitive(t))
  }

  /** The members of a struct at top-level position `index`. */
  function StrideMembers(fs: seq<IcebergField>, index: int): (r: seq<NestedField>)
    ensures |r| == |fs|
    ensures forall j | 0 <= j < |fs| :: r[j].name == fs[j].name && r[j].required == fs[j].required
    ensures forall j | 0 <= j < |fs| :: r[j].fieldType == Primitive(NestedFallback(fs[j].fieldType))
    ensures forall j | 0 <= j < |fs| :: r[j].id == BlockStart(index) + MemberOffset + j
  {
    seq(|fs|, j requires 0 <= j < |fs| =>
      NestedField(BlockStart(index) + j + MemberOffset, fs[j].name, fs[j].required,
                  Primitive(NestedFallback(fs[j].fieldType))))
  }

  /** The field loop of `rest_catalog_create_table`, from position
      `offset` on. */
  function StrideFields(fields: seq<IcebergField>, offset: nat): (r: seq<NestedField>)
    ensures |r| == |fields|
    ensures forall i | 0 <= i < |fields| ::
              && r[i].id == offset + i + 1
              && r[i].name == fields[i].name
              && r[i].required == fields[i].required
              && r[i].fieldType == StrideType(fields[i].fieldType, offset + i)
  {
    seq(|fields|, i requires 0 <= i < |fields| =>
      NestedField(offset + i + 1, fields[i].name, fields[i].required, StrideType(fields[i].fieldType, offset + i)))
  }

  /** The schema fields of one create-table call. */
  function StrideSchema(fields: seq<IcebergField>): (r: seq<NestedField>)
    ensures |r| == |fields|
    ensures forall i | 0 <= i < |fields| ::
              && r[i].id == i + 1
              && r[i].name == fields[i].name
              && r[i].required == fields[i].required
              && r[i].fieldType == StrideType(fields[i].fieldType, i)
  {
    StrideFields(fields, 0)
  }

  /*** The id formulas ***/

  /** How many ids a top-level field's type holds below it. */
  function NestedCount(t: IcebergFieldType): nat {
    match t
    case List(_, _) => 1
    case Map(_, _, _) => 2
    case Struct(fs) => |fs|
    case _ => 0
  }

  /** The offset of a type's first nested id in its block. */
  function FirstOffset(t: IcebergFieldType): int {
    if t.Struct? then MemberOffset else FirstNestedOffset
  }

  /** The ids below a top-level field are a run of consecutive numbers in
      its block: `index*1000+1` for a list element, `index*1000+1` and
      `index*1000+2` for a map key and value, and `index*1000+j+10` for the
      struct member at `j`; there are none below a primitive. Every nested
      type is primitive, so no id lies deeper. */
  lemma StrideTypeIds(t: IcebergFieldType, index: int)
    ensures |Ids(StrideType(t, index))| == NestedCount(t)
    ensures forall j | 0 <= j < NestedCount(t) ::
              Ids(StrideType(t, index))[j] == BlockStart(index) + FirstOffset(t) + j
  {
    match t
    case Struct(fs) =>
      StrideMemberIds(fs, index, 0);
    case _ =>
  }

  lemma {:induction false} StrideMemberIds(fs: seq<IcebergField>, index: int, from: nat)
    requires from <= |fs|
    ensures MemberIds(StrideMembers(fs, index)[from..]) == seq(|fs| - from, j => BlockStart(index) + MemberOffset + from + j)
    decreases |fs| - from
  {
    if from < |fs| {
      StrideMemberIds(fs, index, from + 1);
      StrideMemberIdsHead(fs, index, from);
      ConsecutiveCons(BlockStart(index) + MemberOffset + from, |fs| - from);
    } else {
      assert StrideMembers(fs, index)[from..] == [];
    }
  }

  /** The member at `from` contributes only its own id, `index*1000+from+10`. */
  lemma StrideMemberIdsHead(fs: seq<IcebergField>, index: int, from: nat)
    requires from < |fs|
    ensures MemberIds(StrideMembers(fs, index)[from..])
            == [BlockStart(index) + MemberOffset + from] + MemberIds(StrideMembers(fs, index)[from + 1..])
  {
    var members := StrideMembers(fs, index);
    assert members[from..][1..] == members[from + 1..];
    assert Ids(members[from].fieldType) == [];
  }

  /** A run of `n` consecutive numbers from `start` is `start` followed by
      the run of `n - 1` from `start + 1`. */
  lemma ConsecutiveCons(start: int, n: nat)
    requires n > 0
    ensures seq(n, j => start + j) == [start] + seq(n - 1, j => start + 1 + j)
  {
  }

  lemma NestedIdsStep(schema: seq<NestedField>)
    requires |schema| > 0
    ensures NestedIds(schema) == Ids(schema[0].fieldType) + NestedIds(schema[1..])
  {
  }

  lemma StrideFieldsStep(fields: seq<IcebergField>, offset: nat)
    requires |fields| > 0
    ensures StrideFields(fields, offset)[1..] == StrideFields(fields[1..], offset + 1)
  {
    var r := StrideFields(fields, offset);
    var rest := StrideFields(fields[1..], offset + 1);
    assert forall i | 0 <= i < |rest| :: r[1..][i] == r[i + 1] == rest[i];
  }

  /*** Collisions ***/

  /** A list or map at position 0: its element or key id, `0*1000+1`, is the
      field's own id 1. The translator does not check for this. */
  lemma IndexZeroContainerCollides(fields: seq<IcebergField>)
    requires |fields| > 0 && (fields[0].fieldType.List? || fields[0].fieldType.Map?)
    ensures TopIds(StrideSchema(fields))[0] == 1 == NestedIds(StrideSchema(fields))[0]
    ensures !NoDuplicates(TopIds(StrideSchema(fields)) + NestedIds(StrideSchema(fields)))
  {
    var schema := StrideSchema(fields);
    StrideTypeIds(fields[0].fieldType, 0);
    NestedIdsStep(schema);
    var all := TopIds(schema) + NestedIds(schema);
    assert all[0] == all[|schema|];
  }

  /** A struct at position 0 next to at least nine more fields: its first
      member's id 10 is the id of the top-level field at position 9. */
  lemma IndexZeroStructCollides(fields: seq<IcebergField>)
    requires |fields| >= 10 && fields[0].fieldType.Struct? && |fields[0].fieldType.fields| > 0
    ensures |NestedIds(StrideSchema(fields))| > 0
    ensures TopIds(StrideSchema(fields))[9] == 10 == NestedIds(StrideSchema(fields))[0]
    ensures !NoDuplicates(TopIds(StrideSchema(fields)) + NestedIds(StrideSchema(fields)))
  {
    var schema := StrideSchema(fields);
    StrideTypeIds(fields[0].fieldType, 0);
    NestedIdsStep(schema);
    var all := TopIds(schema) + NestedIds(schema);
    assert all[9] == all[|schema|];
  }

  /** More than 1000 top-level fields: the field at position 1000 gets id
      1001, which is the element id of a list at position 1. */
  lemma TooManyFieldsCollides(fields: seq<IcebergField>)
    requires |fields| > Stride && fields[1].fieldType.List?
    ensures |Ids(StrideSchema(fields)[1].fieldType)| == 1
    ensures TopIds(StrideSchema(fields))[Stride] == Stride + 1 == Ids(StrideSchema(fields)[1].fieldType)[0]
  {
    StrideTypeIds(fields[1].fieldType, 1);
  }

  /** A struct of 992 or more members overflows its block: the member at
      991 gets `index*1000+1001`, which is the element id of a list at the
      next position. */
  lemma WideStructCollides(fields: seq<IcebergField>, index: nat)
    requires index + 1 < |fields|
    requires fields[index].fieldType.Struct? && |fields[index].fieldType.fields| > MaxMembersInBlock + 1
    requires fields[index + 1].fieldType.List?
    ensures |Ids(StrideSchema(fields)[index].fieldType)| == |fields[index].fieldType.fields|
    ensures |Ids(StrideSchema(fields)[index + 1].fieldType)| == 1
    ensures Ids(StrideSchema(fields)[index].fieldType)[MaxMembersInBlock + 1]
            == Ids(StrideSchema(fields)[index + 1].fieldType)[0]
            == BlockStart(index + 1) + FirstNestedOffset
  {
    StrideTypeIds(fields[index].fieldType, index);
    StrideTypeIds(fields[index + 1].fieldType, index + 1);
  }

  /*** Distinctness away from the collisions ***/

  predicate Increasing(s: seq<int>) {
    forall i, j | 0 <= i < j < |s| :: s[i] < s[j]
  }

  /** Every struct fits in its block. */
  predicate StructsFitBlocks(fields: seq<IcebergField>) {
    forall i | 0 <= i < |fields| :: NestedCount(fields[i].fieldType) <= MaxMembersInBlock
  }

  lemma IncreasingAppend(a: seq<int>, b: seq<int>, bound: int)
    requires Increasing(a) && Increasing(b)
    requires forall i | 0 <= i < |a| :: a[i] < bound
    requires forall j | 0 <= j < |b| :: bound < b[j]
    ensures Increasing(a + b)
  {
  }

  /** When every struct fits in its block, the nested ids increase strictly
      from block to block, and all lie above the first block's start. */
  lemma {:induction false} NestedIdsIncrease(fields: seq<IcebergField>, offset: nat)
    requires StructsFitBlocks(fields)
    ensures Increasing(NestedIds(StrideFields(fields, offset)))
    ensures forall k | 0 <= k < |NestedIds(StrideFields(fields, offset))| ::
              BlockStart(offset) < NestedIds(StrideFields(fields, offset))[k]
    decreases |fields|
  {
    if |fields| > 0 {
      var schema := StrideFields(fields, offset);
      var head := Ids(StrideType(fields[0].fieldType, offset));
      var rest := NestedIds(StrideFields(fields[1..], offset + 1));
      assert NestedIds(schema) == head + rest by {
        NestedIdsStep(schema);
        StrideFieldsStep(fields, offset);
      }
      assert StructsFitBlocks(fields[1..]) by {
        forall i | 0 <= i < |fields[1..]| ensures NestedCount(fields[1..][i].fieldType) <= MaxMembersInBlock {
          assert fields[1..][i] == fields[i + 1];
        }
      }
      NestedIdsIncrease(fields[1..], offset + 1);
      StrideTypeIds(fields[0].fieldType, offset);
      assert NestedCount(fields[0].fieldType) <= MaxMembersInBlock;
      IncreasingAppend(head, rest, BlockStart(offset + 1));
    }
  }

  /** The schema's ids are all distinct when no struct overflows its block,
      there are at most 1000 top-level fields, and the field at position 0
      has nothing below it. These conditions are sufficient; the collisions
      above show what goes wrong when a container sits at position 0, a
      struct overflows its block, or there are more than 1000 fields and a
      list at position 1. */
  lemma StrideIdsDistinct(fields: seq<IcebergField>)
    requires |fields| <= Stride
    requires StructsFitBlocks(fields)
    requires |fields| > 0 ==> !IsContainer(fields[0].fieldType)
    ensures NoDuplicates(TopIds(StrideSchema(fields)) + NestedIds(StrideSchema(fields)))
  {
    var schema := StrideSchema(fields);
    var top := TopIds(schema);
    var nested := NestedIds(schema);
    NestedIdsAboveFirstBlock(fields);
    var all := top + nested;
    forall i, j | 0 <= i < j < |all|
      ensures all[i] != all[j]
    {
      if j < |top| {
        assert all[i] == i + 1 && all[j] == j + 1;
      } else if i < |top| {
        assert all[i] == i + 1 <= Stride < all[j];
      } else {
        assert all[i] == nested[i - |top|] && all[j] == nested[j - |top|];
      }
    }
  }

  /** Under the same conditions the nested ids increase and all lie above
      the first block. */
  lemma NestedIdsAboveFirstBlock(fields: seq<IcebergField>)
    requires StructsFitBlocks(fields)
    requires |fields| > 0 ==> !IsContainer(fields[0].fieldType)
    ensures Increasing(NestedIds(StrideSchema(fields)))
    ensures forall k | 0 <= k < |NestedIds(StrideSchema(fields))| :: Stride < NestedIds(StrideSchema(fields))[k]
  {
    if |fields| > 0 {
      var schema := StrideSchema(fields);
      assert NestedIds(schema) == NestedIds(StrideFields(fields[1..], 1)) by {
        NestedIdsStep(schema);
        StrideFieldsStep(fields, 0);
        StrideTypeIds(fields[0].fieldType, 0);
      }
      assert StructsFitBlocks(fields[1..]) by {
        forall i | 0 <= i < |fields[1..]| ensures NestedCount(fields[1..][i].fieldType) <= MaxMembersInBlock {
          assert fields[1..][i] == fields[i + 1];
        }
      }
      NestedIdsIncrease(fields[1..], 1);
    }
  }

  /*** Ids depend on position and shape only ***/

  /** What the id assignment looks at in a type: its kind and, for a
      struct, its width. Names, required flags and nested types play no
      part, because a live field carries no id of its own. */
  function Shape(t: IcebergFieldType): (nat, nat) {
    (if t.List? then 1 else if t.Map? then 2 else if t.Struct? then 3 else 0, NestedCount(t))
  }

  /** Two field lists of the same length whose types have the same shapes
      position by position get exactly the same ids. */
  lemma {:induction false} IdsDependOnlyOnShape(a: seq<IcebergField>, b: seq<IcebergField>, offset: nat)
    requires |a| == |b|
    requires forall i | 0 <= i < |a| :: Shape(a[i].fieldType) == Shape(b[i].fieldType)
    ensures TopIds(StrideFields(a, offset)) == TopIds(StrideFields(b, offset))
    ensures NestedIds(StrideFields(a, offset)) == NestedIds(StrideFields(b, offset))
    decreases |a|
  {
    if |a| > 0 {
      assert Ids(StrideType(a[0].fieldType, offset)) == Ids(StrideType(b[0].fieldType, offset)) by {
        StrideTypeIds(a[0].fieldType, offset);
        StrideTypeIds(b[0].fieldType, offset);
        assert FirstOffset(a[0].fieldType) == FirstOffset(b[0].fieldType);
      }
      forall i | 0 <= i < |a[1..]|
        ensures Shape(a[1..][i].fieldType) == Shape(b[1..][i].fieldType)
      {
        assert a[1..][i] == a[i + 1] && b[1..][i] == b[i + 1];
      }
      IdsDependOnlyOnShape(a[1..], b[1..], offset + 1);
      NestedIdsStep(StrideFields(a, offset));
      NestedIdsStep(StrideFields(b, offset));
      StrideFieldsStep(a, offset);
      StrideFieldsStep(b, offset);
    }
  }
}

=== FILE: table_handle.dfy ===
/** The table handle (`SmartTableResource`, native/ex_iceberg/src/table.rs):
    the connection settings and the dotted namespace of one table, plus a
    cache of its metadata map. Each operation builds a new catalog client
    and loads the table through it; here that load is an abstract function
    of the connection properties and the identifier. */
module TableHandle {
  import opened Base
  import opened Namespaces
  import opened Connection
  import opened Messages

  /** The current snapshot of a loaded table, its numbers already rendered
      as decimal text. */
  datatype Snapshot = Snapshot(snapshotId: string, sequenceNumber: string)

  /** What a successful load exposes, every value already rendered as text
      (the Debug rendering of the identifier, the JSON renderings of the
      fields and properties). */
  datatype LoadedTable = LoadedTable(
    identifier: string,
    uuid: string,
    formatVersion: string,
    location: string,
    schemaId: string,
    fieldsJson: string,
    propertiesJson: string,
    currentSnapshot: Option<Snapshot>)

  /** Building a catalog client from the given properties and loading the
      table through it; a failure of either step is the error text. */
  type Loader = (Props, TableIdent) -> Result<LoadedTable>

  /** A table handle: where to connect, which table, and the cached
      metadata map (None until the first successful metadata call). */
  datatype SmartTable = SmartTable(
    uri: string,
    warehouse: Option<string>,
    props: Props,
    namespace: string,
    tableName: string,
    cache: Option<Props>)


  /** The keys of a metadata map. */
  const MetadataKeys: set<string> := {"table_uuid", "format_version", "location", "schema_id", "fields", "properties"}

  /** The keys every inspect map has; `current_snapshot_id` and
      `sequence_number` are added when there is a current snapshot. */
  const InspectBaseKeys: set<string> := {"identifier", "location", "table_uuid"}
  const SnapshotKeys: set<string> := {"current_snapshot_id", "sequence_number"}

  /** `SmartTableResource::new`: the given settings and an empty cache. */
  function NewSmartTable(uri: string, warehouse: Option<string>, props: Props, namespace: string, tableName: string): (r: SmartTable)
    ensures r.cache.None?
    ensures r.uri == uri && r.warehouse == warehouse && r.props == props
    ensures r.namespace == namespace && r.tableName == tableName
  {
    SmartTable(uri, warehouse, props, namespace, tableName, None)
  }

  /** The handle's connection settings; `get_catalog` overlays them the same
      way the catalog handle does. */
  function HandleConnection(t: SmartTable): CatalogHandle {
    CatalogHandle(t.uri, t.warehouse, t.props)
  }

  /** `build_table_ident`: the stored namespace split on `.`, and the table
      name. The `unwrap` on `from_vec` never fails, because a split always
      yields a piece. Joining the parts gives back the stored string. */
  function BuildTableIdent(t: SmartTable): (r: TableIdent)
    ensures r.namespace.parts == Split(t.namespace)
    ensures |r.namespace.parts| > 0
    ensures Join(r.namespace.parts) == t.namespace
    ensures r.name == t.tableName
  {
    TableIdent(ParseNamespace(t.namespace), t.tableName)
  }

  /** `get_table`: load through a client built from the overlaid properties;
      the error is prefixed with "Failed to load table: ". */
  function GetTable(t: SmartTable, load: Loader): (r: Result<LoadedTable>)
    ensures var loaded := load(ConnectionProps(HandleConnection(t)), BuildTableIdent(t));
            && (loaded.Ok? ==> r == loaded)
            && (loaded.Err? ==> r == Err(LoadTablePrefix + loaded.error))
  {
    match load(ConnectionProps(HandleConnection(t)), BuildTableIdent(t))
    case Ok(table) => Ok(table)
    case Err(e) => Err(LoadTablePrefix + e)
  }

  /** The metadata map of a loaded table: exactly six keys. */
  function MetadataMap(table: LoadedTable): (r: Props)
    ensures r.Keys == MetadataKeys
    ensures r["table_uuid"] == table.uuid && r["location"] == table.location
    ensures r["format_version"] == table.formatVersion && r["schema_id"] == table.schemaId
    ensures r["fields"] == table.fieldsJson && r["properties"] == table.propertiesJson
  {
    map["table_uuid" := table.uuid, "format_version" := table.formatVersion, "location" := table.location,
        "schema_id" := table.schemaId, "fields" := table.fieldsJson, "properties" := table.propertiesJson]
  }

  /** The inspect map of a loaded table: identifier, location and uuid, and
      the snapshot id and sequence number exactly when there is a current
      snapshot. */
  function InspectMap(table: LoadedTable): (r: Props)
    ensures table.currentSnapshot.None? ==> r.Keys == InspectBaseKeys
    ensures table.currentSnapshot.Some? ==> r.Keys == InspectBaseKeys + SnapshotKeys
    ensures r["identifier"] == table.identifier && r["location"] == table.location && r["table_uuid"] == table.uuid
    ensures table.currentSnapshot.Some? ==>
              && r["current_snapshot_id"] == table.currentSnapshot.value.snapshotId
              && r["sequence_number"] == table.currentSnapshot.value.sequenceNumber
  {
    var base := map["identifier" := table.identifier, "location" := table.location, "table_uuid" := table.uuid];
    match table.currentSnapshot
    case Some(snapshot) =>
      base["current_snapshot_id" := snapshot.snapshotId]["sequence_number" := snapshot.sequenceNumber]
    case None => base
  }

  /** The result of one handle operation: the reply, the handle afterwards,
      and how many table loads it performed. */
  datatype Step = Step(reply: Result<Props>, table: SmartTable, loads: nat)

  /** `get_metadata_cached`. A populated cache is answered from without a
      load and stays as it is. Otherwise the table is loaded once: on
      success the six-key map is returned and becomes the cache; on failure
      the prefixed error is returned and the cache stays empty. Only the
      cache can change. */
  function GetMetadataCached(t: SmartTable, load: Loader): (r: Step)
    ensures t.cache.Some? ==> r == Step(Ok(t.cache.value), t, 0)
    ensures t.cache.None? ==> r.loads == 1
    ensures t.cache.None? && r.reply.Ok? ==> r.reply.value.Keys == MetadataKeys && r.table.cache == Some(r.reply.value)
    ensures t.cache.None? && GetTable(t, load).Ok? ==> r.reply == Ok(MetadataMap(GetTable(t, load).value))
    ensures r.reply.Err? ==> r.table == t && GetTable(t, load).Err? && r.reply.error == GetTable(t, load).error
    ensures r.table == t.(cache := r.table.cache)
  {
    match t.cache
    case Some(cached) => Step(Ok(cached), t, 0)
    case None =>
      match GetTable(t, load)
      case Err(e) => Step(Err(e), t, 1)
      case Ok(table) => Step(Ok(MetadataMap(table)), t.(cache := Some(MetadataMap(table))), 1)
  }

  /** `get_inspect_data`: always loads, and neither reads nor writes the
      cache. */
  function GetInspectData(t: SmartTable, load: Loader): (r: Step)
    ensures r.table == t && r.loads == 1
    ensures r.reply.Ok? <==> GetTable(t, load).Ok?
    ensures r.reply.Ok? ==> r.reply.value == InspectMap(GetTable(t, load).value)
    ensures r.reply.Err? ==> r.reply.error == GetTable(t, load).error
  {
    match GetTable(t, load)
    case Err(e) => Step(Err(e), t, 1)
    case Ok(table) => Step(Ok(InspectMap(table)), t, 1)
  }

  /** `invalidate_cache`: the cache is emptied, whatever it held. */
  function InvalidateCache(t: SmartTable): (r: SmartTable)
    ensures r.cache.None?
    ensures r == t.(cache := None)
  {
    t.(cache := None)
  }

  /*** The host-facing calls ***/

  /** How every table call answers the host: the map under `ok`, or a
      one-entry map `error -> message` under `error`. */
  function Reply(result: Result<Props>): (r: (Atom, Props))
    ensures result.Ok? ==> r == (OkAtom, result.value)
    ensures result.Err? ==> r.0 == ErrorAtom && r.1.Keys == {ErrorKey} && r.1[ErrorKey] == result.error
  {
    match result
    case Ok(m) => (OkAtom, m)
    case Err(e) => (ErrorAtom, map[ErrorKey := e])
  }

  /** A host call's answer with the handle afterwards and the loads made. */
  datatype CallStep = CallStep(atom: Atom, reply: Props, table: SmartTable, loads: nat)

  /** `table_metadata`: a populated cache answers `ok` with the cached map
      and no load; otherwise one load, whose map answers `ok` and becomes the
      cache, or whose error answers `error` and leaves the handle as it was. */
  function TableMetadata(t: SmartTable, load: Loader): (r: CallStep)
    ensures t.cache.Some? ==> r == CallStep(OkAtom, t.cache.value, t, 0)
    ensures t.cache.None? ==> r.loads == 1
    ensures t.cache.None? && GetTable(t, load).Ok? ==>
              && r.atom == OkAtom && r.reply == MetadataMap(GetTable(t, load).value)
              && r.table == t.(cache := Some(r.reply))
    ensures t.cache.None? && GetTable(t, load).Err? ==>
              r == CallStep(ErrorAtom, map[ErrorKey := GetTable(t, load).error], t, 1)
  {
    var step := GetMetadataCached(t, load);
    var reply := Reply(step.reply);
    CallStep(reply.0, reply.1, step.table, step.loads)
  }

  /** `table_metadata_ref`: currently the same call as `table_metadata`. */
  function TableMetadataRef(t: SmartTable, load: Loader): (r: CallStep)
    ensures t.cache.Some? ==> r == CallStep(OkAtom, t.cache.value, t, 0)
    ensures t.cache.None? ==> r.loads == 1
    ensures t.cache.None? && GetTable(t, load).Ok? ==>
              && r.atom == OkAtom && r.reply == MetadataMap(GetTable(t, load).value)
              && r.table == t.(cache := Some(r.reply))
    ensures t.cache.None? && GetTable(t, load).Err? ==>
              r == CallStep(ErrorAtom, map[ErrorKey := GetTable(t, load).error], t, 1)
  {
    var step := GetMetadataCached(t, load);
    var reply := Reply(step.reply);
    CallStep(reply.0, reply.1, step.table, step.loads)
  }

  /** `table_inspect`: one load; its inspection map answers `ok`, or the
      load error answers `error`, and the handle is left as it was. */
  function TableInspect(t: SmartTable, load: Loader): (r: CallStep)
    ensures r.table == t && r.loads == 1
    ensures (r.atom, r.reply) == Reply(GetInspectData(t, load).reply)
    ensures GetTable(t, load).Ok? ==> r.atom == OkAtom && r.reply == InspectMap(GetTable(t, load).value)
    ensures GetTable(t, load).Err? ==> r.atom == ErrorAtom && r.reply == map[ErrorKey := GetTable(t, load).error]
  {
    var step := GetInspectData(t, load);
    var reply := Reply(step.reply);
    CallStep(reply.0, reply.1, step.table, step.loads)
  }

  /** `table_invalidate_cache`: always `ok`. */
  function TableInvalidateCache(t: SmartTable): (r: (Atom, SmartTable))
    ensures r.0 == OkAtom && r.1.cache.None?
    ensures r.1 == t.(cache := None)
  {
    (OkAtom, InvalidateCache(t))
  }

  /*** Sequences of calls ***/

  /** The host calls a handle receives. */
  datatype Call = Metadata | MetadataRef | Inspect | Invalidate

  /** One host call. */
  function Perform(t: SmartTable, load: Loader, call: Call): (r: CallStep)
    ensures r.table == t.(cache := r.table.cache)
  {
    match call
    case Metadata => TableMetadata(t, load)
    case MetadataRef => TableMetadataRef(t, load)
    case Inspect => TableInspect(t, load)
    case Invalidate =>
      var step := TableInvalidateCache(t);
      CallStep(step.0, map[], step.1, 0)
  }

  /** The host calls in order: the answers, the handle at the end and the
      total number of loads. */
  datatype Trace = Trace(answers: seq<Atom>, table: SmartTable, loads: nat)

  function Run(t: SmartTable, load: Loader, calls: seq<Call>): (r: Trace)
    ensures |r.answers| == |calls|
    ensures r.table == t.(cache := r.table.cache)
    decreases |calls|
  {
    if |calls| == 0 then Trace([], t, 0)
    else
      var first := Perform(t, load, calls[0]);
      var rest := Run(first.table, load, calls[1..]);
      Trace([first.atom] + rest.answers, rest.table, first.loads + rest.loads)
  }

  /** How many of the calls are inspections, and how many invalidations. */
  function CountOf(calls: seq<Call>, kind: Call): nat {
    if |calls| == 0 then 0
    else (if calls[0] == kind then 1 else 0) + CountOf(calls[1..], kind)
  }

  /** The loader always succeeds for this handle. */
  predicate AlwaysLoads(t: SmartTable, load: Loader) {
    load(ConnectionProps(HandleConnection(t)), BuildTableIdent(t)).Ok?
  }

  /** With a loader that succeeds, a run performs at most one load per
      inspection, one per invalidation, and one more if it starts with an
      empty cache: metadata calls between invalidations share one load. */
  lemma {:induction false} LoadsBounded(t: SmartTable, load: Loader, calls: seq<Call>)
    requires AlwaysLoads(t, load)
    ensures Run(t, load, calls).loads
            <= CountOf(calls, Inspect) + CountOf(calls, Invalidate) + (if t.cache.None? then 1 else 0)
    decreases |calls|
  {
    if |calls| > 0 {
      var first := Perform(t, load, calls[0]);
      assert first.table == t.(cache := first.table.cache);
      assert AlwaysLoads(first.table, load) by {
        assert HandleConnection(first.table) == HandleConnection(t);
        assert BuildTableIdent(first.table) == BuildTableIdent(t);
      }
      LoadsBounded(first.table, load, calls[1..]);
      match calls[0]
      case Metadata =>
        assert first.table.cache.Some?;
      case MetadataRef =>
        assert first.table.cache.Some?;
      case Inspect =>
      case Invalidate =>
    }
  }

  /** The cache holds nothing, or a metadata map. */
  predicate CacheWellFormed(t: SmartTable) {
    t.cache.Some? ==> t.cache.value.Keys == MetadataKeys
  }

  /** Every call keeps the cache well formed. */
  lemma {:induction false} RunKeepsCacheWellFormed(t: SmartTable, load: Loader, calls: seq<Call>)
    requires CacheWellFormed(t)
    ensures CacheWellFormed(Run(t, load, calls).table)
    decreases |calls|
  {
    if |calls| > 0 {
      var first := Perform(t, load, calls[0]);
      assert CacheWellFormed(first.table);
      RunKeepsCacheWellFormed(first.table, load, calls[1..]);
    }
  }

  /** A second metadata call right after a successful one performs no load
      and returns the same map, even when the table has changed in the
      meantime (`later` is the catalog's answer by then). */
  lemma CachedMetadataIsServedWithoutLoad(t: SmartTable, load: Loader, later: Loader)
    requires t.cache.None? && AlwaysLoads(t, load)
    ensures var first := TableMetadata(t, load);
            var second := TableMetadata(first.table, later);
            && first.loads == 1 && second.loads == 0
            && second.atom == OkAtom && second.reply == first.reply
  {
  }

  /** After an invalidation, the next metadata call loads again and answers
      with what the catalog holds now. */
  lemma InvalidateForcesReload(t: SmartTable, later: Loader)
    requires AlwaysLoads(t, later)
    ensures var cleared := TableInvalidateCache(t).1;
            var next := TableMetadata(cleared, later);
            && next.loads == 1 && next.atom == OkAtom
            && next.reply == MetadataMap(GetTable(t, later).value)
  {
    var cleared := TableInvalidateCache(t).1;
    assert HandleConnection(cleared) == HandleConnection(t);
    assert BuildTableIdent(cleared) == BuildTableIdent(t);
  }

  /** A failed metadata call leaves the handle as it was, so the next call
      tries to load again. */
  lemma FailedLoadIsRetried(t: SmartTable, load: Loader)
    requires t.cache.None? && !AlwaysLoads(t, load)
    ensures var first := TableMetadata(t, load);
            && first.atom == ErrorAtom && first.table == t
            && TableMetadata(first.table, load).loads == 1
  {
  }

  /** Inspecting never looks at the cache: the answer is the same whatever
      the cache holds. */
  lemma InspectIgnoresCache(t: SmartTable, load: Loader, cache: Option<Props>)
    ensures TableInspect(t.(cache := cache), load).reply == TableInspect(t, load).reply
  {
    assert HandleConnection(t.(cache := cache)) == HandleConnection(t);
    assert BuildTableIdent(t.(cache := cache)) == BuildTableIdent(t);
  }

  /** The two metadata calls cannot be told apart. */
  lemma MetadataRefIsMetadata(t: SmartTable, load: Loader)
    ensures TableMetadataRef(t, load) == TableMetadata(t, load)
  {
  }
}

=== FILE: translator_agreement.dfy ===
/** The live and the legacy translators side by side on scalar types. The
    live field types are a subset of the legacy scalar variants (no Time,
    Timestamptz or nanosecond kinds, and a `u32` Fixed length), so each live
    scalar embeds into the legacy enum under its own name; through that
    embedding both translators pick the same primitive kind. */
module TranslatorAgreement {
  import opened Base
  import opened SpecTypes
  import FieldTypes
  import LegacyTypes
  import StrideTranslator
  import CounterTranslator

  /** The legacy scalar variant of the same name as a live scalar field
      type; the Fixed length is widened to `u64`. */
  function LegacyScalar(t: FieldTypes.IcebergFieldType): (r: LegacyTypes.ScalarType)
    requires !FieldTypes.IsContainer(t)
    ensures t.Decimal? <==> r.Decimal?
    ensures t.Decimal? ==> r.precision == t.precision && r.scale == t.scale
    ensures t.Fixed? <==> r.Fixed?
    ensures t.Fixed? ==> r.length as int == t.length as int
  {
    match t
    case Boolean => LegacyTypes.Boolean
    case Int => LegacyTypes.Int
    case Long => LegacyTypes.Long
    case Float => LegacyTypes.Float
    case Double => LegacyTypes.Double
    case String => LegacyTypes.String
    case Uuid => LegacyTypes.Uuid
    case Date => LegacyTypes.Date
    case Timestamp => LegacyTypes.Timestamp
    case Binary => LegacyTypes.Binary
    case Decimal(p, s) => LegacyTypes.Decimal(p, s)
    case Fixed(n) => LegacyTypes.Fixed(Widen(n))
  }

  /** The embedding loses nothing: distinct live scalars embed as distinct
      legacy scalars. */
  lemma LegacyScalarIsInjective(a: FieldTypes.IcebergFieldType, b: FieldTypes.IcebergFieldType)
    requires !FieldTypes.IsContainer(a) && !FieldTypes.IsContainer(b)
    ensures LegacyScalar(a) == LegacyScalar(b) <==> a == b
  {
  }

  /** The live primitive mapping is the legacy one, name for name: a live
      scalar becomes the kind its legacy namesake becomes. */
  lemma LivePrimitiveMatchesLegacy(t: FieldTypes.IcebergFieldType)
    requires !FieldTypes.IsContainer(t)
    ensures StrideTranslator.LivePrimitive(t) == CounterTranslator.SpecPrimitive(LegacyScalar(t))
  {
  }

  /** A top-level scalar field gets the same type from both translators, and
      the legacy counter does not move for it. */
  lemma ScalarTranslatorsAgree(t: FieldTypes.IcebergFieldType, index: int, next: int)
    requires !FieldTypes.IsContainer(t)
    ensures CounterTranslator.Translate(LegacyTypes.Scalar(LegacyScalar(t)), next)
            == (StrideTranslator.StrideType(t, index), next)
  {
    LivePrimitiveMatchesLegacy(t);
    CounterTranslator.PrimitiveMappingIsInjective(LegacyScalar(t), next);
  }
}
